=== FILE: README.md ===
# Trading-bias detector core, modelled in Dafny

This project models the analysis core of the National Bank Bias Detector
backend. A trader uploads a CSV of trades. The engine:

- normalises the headers and cells into a frame;
- cleans the frame: invalid rows, the 1990–2030 epoch window, interquartile
  outliers on P/L and balance, and duplicates;
- runs three detectors (overtrading, loss aversion, revenge trading);
- ranks their results and aggregates a single 0–100 bias score, with an
  hour-of-day histogram and the echoed trades.

Two smaller pieces are modelled as well: the snake_case → camelCase helper
`to_camel`, and the AI coach's prompt assembly (the trade and
bias summaries, the message list and the missing-key reply).

Layout, one module per file:

| module | file | what |
|---|---|---|
| `Util` | util.dfy | `Option`/`Result`, sums and means, filter, index sets, keep-first de-duplication, half-even rounding, decimal numerals |
| `Sorting` | sorting.dfy | a stable sort by integer key |
| `Trades` | trades.dfy | parsed rows (`Record`), cleaned rows (`Trade`), frames with column flags (`Table`) |
| `Parse` | parse.dfy | `parse_csv_to_dataframe` from already-split cells |
| `Preprocess` | preprocess.dfy | `preprocess_trades`, as written and corrected |
| `Biases` | biases.dfy | result records, severity bands |
| `Overtrading`, `LossAversion`, `Revenge` | overtrading.dfy, loss_aversion.dfy, revenge.dfy | the three detectors |
| `Analysis` | analysis.dfy | `run_analysis` |
| `Camel` | camel.dfy | `to_camel` |
| `Coach` | coach.dfy | the AI coach request assembly |

Modelling choices:

- Timestamps are epoch seconds (`int`).
- Money and sizes are `real`.
- A numeric cell after the lenient float cast is `Null`, `Finite(x)` or
  `NonFinite`.
- A frame carries two flags, `hasPnl` and `hasBalance`, because the engine
  branches on whether a column exists, not only on whether a cell is null.
- Library behaviour enters as parameters:
  - `Decoders` for reading dates and numbers;
  - `Quantile` for the frame's quantile;
  - `FixedPoint` for `:.Nf` number formatting.

## Model

| member | source | states |
|---|---|---|
| Util.RoundHalfEven | backend/app/bias_engine.py:388 | the result is within one half of the input, and an exact half goes to the even neighbour, as Python 3 `round` does |
| Util.UniqueByIffFirst | backend/app/bias_engine.py:143 | keep-first de-duplication keeps an element exactly when no earlier element shares its key |
| Util.UniqueByKeepsFirst | backend/app/api/ai_coach.py:25 | keep-first de-duplication keeps, for each key, its first occurrence |
| Util.NatToStringValue | backend/app/api/ai_coach.py:19 | the decimal numeral of a count reads back as that count |
| Sorting.SortByKeyStable | backend/app/bias_engine.py:384 | the sort keeps equal keys in input order |
| Parse.Strip | backend/app/bias_engine.py:55 | header stripping removes exactly the leading and trailing characters Python counts as whitespace: the result is a contiguous slice of the header with only whitespace before and after it, empty exactly when the header is all whitespace, and otherwise neither end is whitespace |
| Parse.InnerSpaceKept | backend/app/bias_engine.py:55 | whitespace inside a header survives stripping: ` a b ` becomes `a b` |
| Parse.Trim | backend/app/bias_engine.py:96 | asset stripping is the same contiguous slice for the Unicode White_Space set, which leaves out the separators U+001C to U+001F |
| Parse.TrimEmptyIffBlank | backend/app/bias_engine.py:96 | an asset strips to nothing exactly when every character is White_Space |
| Parse.SeparatorSurvivesTrim | backend/app/bias_engine.py:96 | a lone unit separator strips to nothing as a header but is kept in an asset cell |
| Parse.RenameHeaderSpec | backend/app/bias_engine.py:53-58 | a header becomes a canonical column exactly when its stripped, lower-cased text is a known spelling; any other header is left as it was |
| Parse.PaddedHeaderRenamed | backend/app/bias_engine.py:55-58 | a P/L header padded with an ideographic space is still recognised |
| Parse.RenameHeaderIdempotent | backend/app/bias_engine.py:53-58 | renaming an already renamed header changes nothing, since every canonical name is a known spelling of itself |
| Parse.NormalizeAction | backend/app/bias_engine.py:68-74 | every action cell, null or unknown included, becomes `buy` or `sell` |
| Parse.NormalizeActionIgnoresCase | backend/app/bias_engine.py:68-74 | the action word ignores letter case, and it is `buy` exactly for `buy` or `b` in any case |
| Parse.DecodeRow | backend/app/bias_engine.py:66-78 | a row fails exactly when its timestamp text is present and the date reader rejects it; otherwise the timestamp is the date read from its cell (null exactly when the cell is), the action is `buy` when the lower-cased action cell is `buy` or `b` and `sell` otherwise, a null cell included (the cell is not stripped), the asset is its cell, quantity and price are the numbers read from their cells, and P/L and balance are read from their columns, null when the column is absent |
| Parse.DecodeRows | backend/app/bias_engine.py:66-78 | decoding the frame fails exactly when some row fails; otherwise every row is decoded in place |
| Parse.SortRecordsCorrect | backend/app/bias_engine.py:80 | the timestamp sort is a permutation that puts null timestamps first and the rest in ascending order |
| Parse.BuildFrame | backend/app/bias_engine.py:65-81 | the frame has one row per input row, is a permutation of the decoded rows, is time-ordered, and records which optional columns exist; the only error is an unreadable timestamp |
| Parse.ParseFrame | backend/app/bias_engine.py:49-81 | parsing succeeds exactly when the renamed names are distinct, hold the five required columns and every row decodes; a date the reader rejects is the only row-level error; duplicate names are an error exactly when they occur; a missing-columns error names precisely the required columns absent; on success the rows are a permutation of the decoded rows, in time order, with the row count kept |
| Parse.MissingColumnsHaveNoHeader | backend/app/bias_engine.py:60-63 | when parsing reports missing columns, some required column is the rename of no header |
| Preprocess.ToTrades | backend/app/bias_engine.py:93-100 | every valid row converts to a typed trade that converts back to that row, in place |
| Preprocess.Admitted | backend/app/bias_engine.py:93-111 | the admitted trades convert back to exactly the input rows that are valid and inside the 1990–2030 window, in order |
| Preprocess.AdmittedIff | backend/app/bias_engine.py:93-111 | a trade is admitted exactly when its row is in the input, valid and inside the window |
| Preprocess.FenceFor | backend/app/bias_engine.py:118-132 | a fence exists exactly with at least ten values and a positive interquartile range, and its bounds are 1.5 ranges beyond the quartiles |
| Preprocess.RemoveOutliers | backend/app/bias_engine.py:115-139 | with no fence the rows are unchanged; otherwise each row keeps all its copies when its value is null or inside the fence and loses them all when outside |
| Preprocess.Fenced | backend/app/bias_engine.py:114-139 | the balance pass runs on what the P/L pass kept; a row survives with all its copies exactly when it passes both fences, and fewer than ten rows pass untouched |
| Preprocess.SurvivorIff | backend/app/bias_engine.py:93-139 | a trade survives the outlier passes exactly when its row is in the input, valid, in the window and inside both fences |
| Preprocess.CleanValid | backend/app/bias_engine.py:105-148 | the full path: the cleaned rows are, as a multiset, the first row of each key among the survivors, in time order; invalid counts the rows failing validity or the window, outliers the admitted rows the fences removed, duplicates the survivors sharing a key with an earlier one; the four counts add up |
| Preprocess.Preprocess | backend/app/bias_engine.py:84-148 | as written: an empty frame comes back unchanged with no after-count; with some valid row, the result is the full path's; with none, the counts read before = n, all dropped = 0, after = 0; every kept row is clean, in time order, with a distinct key, and comes from the input |
| Preprocess.KeptIffFirstSurvivor | backend/app/bias_engine.py:141-145 | with some valid row, a trade is in the cleaned frame exactly when it is the first survivor of its key |
| Preprocess.SmallDistinctFrameKept | backend/app/bias_engine.py:114-145 | fewer than ten admissible rows with distinct keys are all kept |
| Preprocess.UnaccountedInvalidRows | backend/app/bias_engine.py:100-103 | a one-row frame without a timestamp reports one row before, none after, and none dropped |
| Preprocess.PreprocessFixed | backend/app/bias_engine.py:84-148 | the corrected cleaning: every non-empty frame is cleaned as the full path describes, and the counts add up on every path |
| Preprocess.FixedDiffersOnlyInInvalidCount | backend/app/bias_engine.py:100-103 | the correction leaves the frame alone and changes only the invalid-row count, and it changes that count exactly when the frame is non-empty with no valid row |
| Biases.Grade | backend/app/bias_engine.py:201 | a score is critical exactly above the top threshold, high exactly above the second and not the top, medium exactly above the third only, and low otherwise |
| Overtrading.MaxPerHourUpTo | backend/app/bias_engine.py:160-166 | the busiest-hour count bounds every row's hourly count and is attained by some row |
| Overtrading.Score | backend/app/bias_engine.py:192-197 | 8 points per trade beyond five in the busiest hour, capped at 50, plus 5 per flagged row, capped at 50 |
| Overtrading.Detect | backend/app/bias_engine.py:151-214 | no result below two rows; no result means no flags; a result scores by the busiest hour and the flag count, at least 15, with the severity band of that score and details matching both, and flags exactly the large tickets and the rows of busy hours |
| Overtrading.FlagsAreUnion | backend/app/bias_engine.py:168-190 | whichever branch is taken, the flags are the union of large tickets and busy-hour rows |
| Overtrading.DetectedIff | backend/app/bias_engine.py:192-199 | with two or more rows, a result appears exactly when some hour has more than five trades or at least three tickets exceed a tenth of the balance |
| Overtrading.BusyHourScore | backend/app/bias_engine.py:192-199 | an hour with more than five trades always yields a result scoring at least 38 |
| LossAversion.FiguresOf | backend/app/bias_engine.py:239-245 | each ratio is the quotient of its averages when the divisor is usable, and the duration ratio is 0 when the average winning gap is not positive |
| LossAversion.Score | backend/app/bias_engine.py:247-252 | the score is the sum of the two capped terms: each ratio above 1.2 contributes (ratio - 1) times 50 for duration or 30 for size, capped at 40; so it lies in [0, 80], is 0 when neither ratio exceeds 1.2, and reaches the reporting minimum of 15 when the duration ratio is at least 1.3 or the size ratio at least 1.5 |
| LossAversion.Term | backend/app/bias_engine.py:248-251 | one ratio's contribution: 0 up to 1.2, then (ratio - 1) times its weight, capped at 40 |
| LossAversion.BiasOf | backend/app/bias_engine.py:266-281 | the emitted bias: its score is the half-even rounding of the raw score, in [15, 80] when the raw score reaches 15; its severity is graded at 70/45/25 on the raw score; its details are the ratios and averages rounded to two places |
| LossAversion.MedianAtLeastHalf | backend/app/bias_engine.py:257 | at least half of the values lie at or above their median |
| LossAversion.MedianAtMostHalf | backend/app/bias_engine.py:257 | at least half of the values lie at or below their median |
| LossAversion.Detect | backend/app/bias_engine.py:217-282 | no result without a P/L column, three rows, a win, a loss and a timed win and loss; a result is exactly the bias built from the frame's figures and scores in [15, 80]; the flags are exactly the losing rows, after the first, held at least the median losing gap |
| LossAversion.HalfOfLossesFlagged | backend/app/bias_engine.py:256-264 | when a result is emitted, at least half of the timed losing trades are flagged |
| LossAversion.LargeLossesDetected | backend/app/bias_engine.py:241-254 | an average loss of at least 1.5 times the average win always produces a result |
| LossAversion.SlowLosersDetected | backend/app/bias_engine.py:239-254 | losing gaps averaging at least 1.3 times the winning gaps always produce a result |
| LossAversion.BalancedNotDetected | backend/app/bias_engine.py:243-254 | when neither ratio exceeds 1.2 there is no result |
| Revenge.Score | backend/app/bias_engine.py:314-315 | 25 points per revenge trade up to four, 100 from four on, and 0 exactly when there is none |
| Revenge.Detect | backend/app/bias_engine.py:285-328 | a row is flagged exactly when it follows a loss within 30 minutes (strictly later) with more than 1.5 times the previous size; a result scores 25 per flag up to 100 |
| Revenge.DetectedIff | backend/app/bias_engine.py:305-317 | a result appears exactly when some row is a revenge trade |
| Revenge.NoPnlNoResult | backend/app/bias_engine.py:296 | without a P/L column there is never a result |
| Revenge.SeverityByCount | backend/app/bias_engine.py:314-319 | one revenge trade is low, two are high, three or more critical; medium never occurs |
| Analysis.HourCountsTotal | backend/app/bias_engine.py:368-370 | the 24 hour-of-day counts add up to the number of trades |
| Analysis.CountHours | backend/app/bias_engine.py:368-370 | filling the histogram one trade at a time gives the per-hour counts |
| Analysis.BiasScore | backend/app/bias_engine.py:387-388 | the aggregate is 0 with no results and never above 100 |
| Analysis.BiasScoreBetween | backend/app/bias_engine.py:387-388 | the aggregate score lies between the lowest and the highest result score |
| Analysis.BiasScoreOfOne | backend/app/bias_engine.py:387-388 | with a single result the aggregate is that result's score |
| Analysis.Ranked | backend/app/bias_engine.py:377-384 | the results are a permutation of those present, at most three, highest score first, each in [15, 100] |
| Analysis.ReportFor | backend/app/bias_engine.py:348-404 | on a non-empty cleaned frame the report carries the cleaning stats, the trade count, the first 10000 trades echoed in order, the per-hour counts of all trades, each detector's flags as it returned them, its results ranked highest first, and the rounded mean of their scores; scores lie in [15, 100] and flags index real rows |
| Analysis.ReportOf | backend/app/bias_engine.py:337-404 | the same report for any cleaned frame, with no results, no flags, no echoed trades and a zero score when no trade is left |
| Analysis.RunAnalysis | backend/app/bias_engine.py:331-404 | the report of the frame as the as-written cleaning leaves it |
| Analysis.RunAnalysisFixed | backend/app/bias_engine.py:331-404 | the report of the frame as the corrected cleaning leaves it, whose counts always add up to the trade count |
| Analysis.FixedReportDiffersOnlyInStats | backend/app/bias_engine.py:100-103 | the corrected report differs from the as-written one only in its cleaning stats |
| Analysis.TiesKeepDetectorOrder | backend/app/bias_engine.py:377-384 | results with equal scores stay in detector order: overtrading, loss aversion, revenge trading |
| Camel.JoinSplit | backend/app/schemas/common.py:7 | joining the underscore-separated pieces gives back the name |
| Camel.SplitJoin | backend/app/schemas/common.py:7 | splitting underscore-free pieces joined by underscores gives them back |
| Camel.TitleSpec | backend/app/schemas/common.py:8 | title-casing upper-cases exactly the letters that start a run of letters, lower-cases the other letters and keeps the rest |
| Camel.TitleIdempotent | backend/app/schemas/common.py:8 | title-casing twice is title-casing once |
| Camel.TitleOfWord | backend/app/schemas/common.py:8 | an alphabetic piece becomes its first letter upper-cased and the rest lower-cased |
| Camel.ToCamel | backend/app/schemas/common.py:6-8 | the camelCase name contains no underscore and is shorter than the snake_case name by exactly its number of underscores |
| Camel.NoUnderscoreUnchanged | backend/app/schemas/common.py:7-8 | a name without underscores is left as it is |
| Camel.ToCamelIdempotent | backend/app/schemas/common.py:7-8 | converting a converted name changes nothing |
| Camel.FirstComponentKept | backend/app/schemas/common.py:8 | the text before the first underscore opens the result verbatim, not re-cased |
| Camel.DoubledUnderscore | backend/app/schemas/common.py:7-8 | `a__b` becomes `aB`: empty pieces contribute nothing |
| Camel.UserIdSpellings | backend/app/schemas/common.py:6-8 | a later piece is re-cased as a whole: `user_id` and `user_ID` both become `userId` |
| Camel.TwoPiecesCamel | backend/app/schemas/common.py:7-8 | two underscore-free pieces joined by one underscore become the first piece followed by the second title-cased |
| Coach.MissingPnlAddsNothing | backend/app/api/ai_coach.py:20 | a trade with no P/L adds nothing to the total |
| Coach.WinRate | backend/app/api/ai_coach.py:23-24 | the win rate lies in [0, 100] |
| Coach.TopAssets | backend/app/api/ai_coach.py:25 | as many assets as there are distinct ones, up to five, no repeats, each one traded, and every traded asset listed when there are at most five |
| Coach.TopAssetsInFirstAppearanceOrder | backend/app/api/ai_coach.py:25 | listed assets follow the order of their first appearance |
| Coach.TopAssetsAreFirst | backend/app/api/ai_coach.py:25 | a traded asset left off the list first appears after every listed one: the list is the first five by first appearance |
| Coach.TradeSummary | backend/app/api/ai_coach.py:18-28 | the summary is the count sentence and the total P/L sentence, followed by the no-data sentence when there are no trades and otherwise by the win-rate sentence and the top-assets sentence |
| Coach.BiasSummary | backend/app/api/ai_coach.py:30-37 | the bias summary is the no-bias sentence exactly when there are no biases; otherwise it is the heading followed by every bias entry, in order, joined by "; " |
| Coach.NullTitleReadsNone | backend/app/api/ai_coach.py:32 | a bias whose title is null reads `None`, and a missing description reads empty |
| Coach.JoinWithLength | backend/app/api/ai_coach.py:31 | the joined length is the parts' total length plus one separator between each two |
| Coach.JoinWithAt | backend/app/api/ai_coach.py:31 | each part appears verbatim at its offset in the joined text: the lengths of the earlier parts plus one separator after each |
| Coach.JoinWithSepAt | backend/app/api/ai_coach.py:31 | the separator sits directly after every part but the last |
| Coach.ToMessage | backend/app/api/ai_coach.py:39 | a history turn keeps its role; its content is empty when missing, null exactly when sent as null, and otherwise the text sent |
| Coach.Messages | backend/app/api/ai_coach.py:39-59 | the system prompt first, then one message per history turn in order, then the user's message: two more than the history |
| Coach.Coach | backend/app/api/ai_coach.py:61-62 | the fixed not-configured reply is returned exactly when the API key is empty; otherwise the assembled messages are sent |

## Left out

- CSV tokenising (`read_csv`) and date parsing (`str.to_datetime`): the model starts from split text cells, and the date and number readers are the `Decoders` parameter. A date the reader rejects is an error, as with the strict default.
- Duplicate headers: a data frame cannot hold two columns of one name, so `Parse.ParseFrame` requires distinct input headers. Two headers renamed to the same column are modelled as an error, which is what the frame's rename does.
- Quantile interpolation: the data frame's `quantile` is the `Quantile` parameter. The fence logic around it is modelled.
- Sort and de-duplication tie order: the data frame's sort and `unique` do not promise an order among equal keys. The model sorts stably and keeps the first row of each key, which is one of the allowed outcomes.
- Floating point: money, sizes, scores and ratios are exact reals. NaN and infinity appear only as the `NonFinite` quantity and price cell. A non-finite P/L or balance, and a ticket share that overflows, are not modelled.
- Biases.Round2: Python's `round(x, 2)` acts on a binary float. The model rounds the exact value half-to-even at two decimals.
- Number formatting: `:.0f`, `:.1f` and `:.2f` in descriptions and the coach summary are the `FixedPoint` parameter. Integer counts are written exactly by `NatToString`.
- Sub-second time: timestamps are whole epoch seconds (`Option<int>`), so the date reader drops any fraction of a second. Two rows that differ only below one second share a de-duplication key in the model, while the source keys on the full microsecond datetime (backend/app/bias_engine.py:143). The loss-aversion gaps (backend/app/bias_engine.py:228) are differences of whole seconds. The data frame's `dt.total_seconds()` instead truncates the exact difference, so the two can differ by one second: 0.9 s and 1.1 s are 1 s apart in the model and 0 s apart in the source.
- Coach.TradeSummary: `CoachTrade.pnl` is `Option<real>`, a number or absent. A client `pnl` that is present but not a number makes the source's `sum` or comparison raise a `TypeError` (backend/app/api/ai_coach.py:20 and 23); that failure is not modelled.
- Timestamp formatting: the echoed trade keeps epoch seconds rather than the `%Y-%m-%dT%H:%M:%S` text.
- Letter case: lower-casing, upper-casing and `str.title` act on ASCII letters only.
- Whitespace: header stripping uses Python's `str.isspace` set and asset stripping the Unicode White_Space set. Both are written out as code-point lists, not derived from a Unicode database.
- The 24-hour histogram and the hour buckets assume UTC, as naive datetimes do.
- Overtrading.Detect: when the busiest hour has more than five trades, the source builds the flag list from a Python `set`, so its order is CPython's hash-table order: with rows 60 to 65 in one busy hour and no large ticket it is `[64, 65, 60, 61, 62, 63]`. The model states the flags as a set of row indices and lists them in ascending order.
- Coach.TopAssets: the request's trades are dictionaries of arbitrary values, but the model's asset is text or absent. An asset that is present but null, or any other non-string value such as `7`, makes the source's `', '.join` raise a `TypeError` (backend/app/api/ai_coach.py:26). The model reads a null asset as the empty string and does not model that failure.
- Coach.ToMessage: a history turn's role and content are passed on as given, whatever their JSON type (backend/app/api/ai_coach.py:39). The model carries them as text or null, so a number, list or object in those fields is not modelled.
- Coach.BiasSummary: the request's biases are dictionaries of arbitrary values, but the model's title, severity and description are text, null or absent. A non-string value such as `"severity": 3` is rendered through `str()` by the f-string (backend/app/api/ai_coach.py:32); that rendering of numbers and other values is not modelled.
- The gateway call of the AI coach and its response handling: this is network I/O.
- The five further bias types advertised by the application: no code computes them.
- Risk-profile sub-scores: they are stored values with no computation.
- The HTTP application, upload loop, routers, authentication, persistence and settings: these are plumbing with no analysis logic.

## Findings

| source | as written | input that shows it | evidently intended | confidence | as-written member | corrected member |
|---|---|---|---|---|---|---|
| backend/app/bias_engine.py:100-103 | when no row passes the validity filter, the early return leaves `dropped_invalid` at 0 while `rows_after` is 0 | one row with an empty timestamp: rows before 1, after 0, nothing dropped | every removed row is counted, so dropped invalid equals rows before | medium, not executed | Preprocess.UnaccountedInvalidRows | Preprocess.PreprocessFixed |

=== FILE: analysis.dfy ===
/** The engine's entry point: clean the frame, run the three detectors,
    rank their results and aggregate a single bias score. */
module Analysis {
  import opened Util
  import opened Sorting
  import opened Trades
  import opened Biases
  import opened Preprocess
  import Overtrading
  import LossAversion
  import Revenge

  /** At most this many trades are echoed back in a report. */
  const TradesCap := 10000
  const HoursPerDay := 24

  /** A trade as echoed in the report; P/L and balance are null when the
      frame lacks the column. */
  datatype TradeOut = TradeOut(
    timestamp: int,
    buySell: string,
    asset: string,
    quantity: real,
    price: real,
    pnl: Option<real>,
    balance: Option<real>)

  datatype TradeFlags = TradeFlags(overtrading: seq<nat>, lossAversion: seq<nat>, revengeTrading: seq<nat>)

  datatype Report = Report(
    biases: seq<Bias>,
    flags: TradeFlags,
    biasScore: int,
    trades: seq<TradeOut>,
    totalTrades: nat,
    hourCounts: seq<nat>,
    stats: Stats)

  function Out(t: Trade, hasPnl: bool, hasBalance: bool): TradeOut {
    TradeOut(t.timestamp, ActionName(t.action), t.asset, t.quantity, t.price,
             if hasPnl then t.pnl else None, if hasBalance then t.balance else None)
  }

  /** The first `TradesCap` rows, as echoed. */
  function Echo(table: Table<Trade>): (r: seq<TradeOut>)
    ensures |r| == Min(TradesCap, |table.rows|)
    ensures forall i :: 0 <= i < |r| ==> r[i] == Out(table.rows[i], table.hasPnl, table.hasBalance)
  {
    var shown := Take(table.rows, TradesCap);
    seq(|shown|, i requires 0 <= i < |shown| => Out(shown[i], table.hasPnl, table.hasBalance))
  }

  /** The hour of the day (UTC) of a trade. */
  function HourOfDay(t: Trade): (h: int)
    ensures 0 <= h < HoursPerDay
  {
    (t.timestamp / 3600) % HoursPerDay
  }

  function InHourPred(h: int): Trade -> bool {
    (t: Trade) => HourOfDay(t) == h
  }

  /** How many trades fall in each hour of the day. */
  function HourCounts(rows: seq<Trade>): (r: seq<nat>)
    ensures |r| == HoursPerDay
  {
    seq(HoursPerDay, h requires 0 <= h < HoursPerDay => |Filter(rows, InHourPred(h))|)
  }

  /** Every trade is counted in exactly one hour. */
  lemma {:induction false} HourCountsTotal(rows: seq<Trade>)
    ensures SumNat(HourCounts(rows)) == |rows|
    decreases |rows|
  {
    if rows == [] {
      assert HourCounts(rows) == seq(HoursPerDay, h => 0);
      ZerosSum(HoursPerDay);
    } else {
      var n := |rows| - 1;
      HourCountsTotal(rows[..n]);
      OneMoreTrade(rows, n);
      assert rows[..n + 1] == rows;
      SumNatBump(HourCounts(rows[..n]), HourOfDay(rows[n]), 1);
    }
  }

  lemma {:induction false} ZerosSum(n: nat)
    ensures SumNat(seq(n, h => 0)) == 0
  {
    if n > 0 {
      assert seq(n, h => 0)[1..] == seq(n - 1, h => 0);
      ZerosSum(n - 1);
    }
  }

  /** The hour histogram built one trade at a time, as the engine fills
      its 24 slots from the per-hour groups. */
  method CountHours(rows: seq<Trade>) returns (counts: seq<nat>)
    ensures counts == HourCounts(rows)
  {
    counts := seq(HoursPerDay, h => 0);
    var i := 0;
    while i < |rows|
      invariant 0 <= i <= |rows|
      invariant counts == HourCounts(rows[..i])
    {
      var h := HourOfDay(rows[i]);
      OneMoreTrade(rows, i);
      counts := counts[h := counts[h] + 1];
      i := i + 1;
    }
    assert rows[..i] == rows;
  }

  lemma OneMoreTrade(rows: seq<Trade>, i: nat)
    requires i < |rows|
    ensures HourCounts(rows[..i + 1]) ==
      HourCounts(rows[..i])[HourOfDay(rows[i]) := HourCounts(rows[..i])[HourOfDay(rows[i])] + 1]
  {
    assert rows[..i + 1] == rows[..i] + [rows[i]];
    forall h | 0 <= h < HoursPerDay
      ensures |Filter(rows[..i + 1], InHourPred(h))| ==
        |Filter(rows[..i], InHourPred(h))| + (if HourOfDay(rows[i]) == h then 1 else 0)
    {
      FilterConcat(rows[..i], [rows[i]], InHourPred(h));
    }
  }

  /** The results present, in detector order. */
  function Collected(ot: Detection, la: Detection, rv: Detection): (r: seq<Bias>)
    ensures |r| <= 3
  {
    (if ot.bias.Some? then [ot.bias.value] else [])
    + (if la.bias.Some? then [la.bias.value] else [])
    + (if rv.bias.Some? then [rv.bias.value] else [])
  }

  /** Sorting key for highest score first. */
  function ScoreDesc(b: Bias): int {
    -b.score
  }

  /** Detector order, which breaks ties between equal scores. */
  function Rank(b: Bias): int {
    match b.kind
    case Overtrading => 0
    case LossAversion => 1
    case RevengeTrading => 2
  }

  function ScoreOf(b: Bias): real {
    b.score as real
  }

  /** The mean score, capped at 100 and rounded; 0 with no results. */
  function BiasScore(biases: seq<Bias>): (r: int)
    ensures biases == [] ==> r == 0
    ensures r <= 100
  {
    if biases == [] then 0
    else RoundHalfEven(MinReal(100.0, Mean(MapSeq(ScoreOf, biases))))
  }

  /** The aggregate lies between the lowest and the highest score. */
  lemma BiasScoreBetween(biases: seq<Bias>, lo: int, hi: int)
    requires biases != []
    requires lo <= hi <= 100
    requires forall i :: 0 <= i < |biases| ==> lo <= biases[i].score <= hi
    ensures lo <= BiasScore(biases) <= hi
  {
    var scores := MapSeq(ScoreOf, biases);
    assert forall i :: 0 <= i < |scores| ==> scores[i] == ScoreOf(biases[i]);
    MeanBounds(scores, lo as real, hi as real);
  }

  /** A single result's score is the aggregate. */
  lemma BiasScoreOfOne(b: Bias)
    requires b.score <= 100
    ensures BiasScore([b]) == b.score
  {
    BiasScoreBetween([b], b.score, b.score);
  }

  predicate ScoreInRange(b: Bias) {
    15 <= b.score <= 100
  }

  predicate AllInRange(biases: seq<Bias>) {
    forall i :: 0 <= i < |biases| ==> ScoreInRange(biases[i])
  }

  /** Scores never increase along the list. */
  predicate HighestFirst(biases: seq<Bias>) {
    forall i, j :: 0 <= i < j < |biases| ==> biases[i].score >= biases[j].score
  }

  /** What the three detectors produce on a cleaned frame. */
  datatype Detections = Detections(overtrading: Detection, lossAversion: Detection, revengeTrading: Detection)

  /** What every detector promises: its own kind, a score in range, and
      flags that index rows of the frame. */
  predicate WellRanged(d: Detections, n: nat) {
    && (d.overtrading.bias.Some? ==> d.overtrading.bias.value.kind == Overtrading)
    && (d.lossAversion.bias.Some? ==> d.lossAversion.bias.value.kind == LossAversion)
    && (d.revengeTrading.bias.Some? ==> d.revengeTrading.bias.value.kind == RevengeTrading)
    && (d.overtrading.bias.Some? ==> ScoreInRange(d.overtrading.bias.value))
    && (d.lossAversion.bias.Some? ==> ScoreInRange(d.lossAversion.bias.value))
    && (d.revengeTrading.bias.Some? ==> ScoreInRange(d.revengeTrading.bias.value))
    && (forall i :: i in d.overtrading.flagged ==> i < n)
    && (forall i :: i in d.lossAversion.flagged ==> i < n)
    && (forall i :: i in d.revengeTrading.flagged ==> i < n)
  }

  function DetectAll(table: Table<Trade>, fmt: FixedPoint): (r: Detections)
    ensures WellRanged(r, |table.rows|)
  {
    var ot := Overtrading.Detect(table);
    var la := LossAversion.Detect(table, fmt);
    var rv := Revenge.Detect(table);
    Detections(ot, la, rv)
  }

  lemma CollectedInRange(d: Detections)
    requires d.overtrading.bias.Some? ==> ScoreInRange(d.overtrading.bias.value)
    requires d.lossAversion.bias.Some? ==> ScoreInRange(d.lossAversion.bias.value)
    requires d.revengeTrading.bias.Some? ==> ScoreInRange(d.revengeTrading.bias.value)
    ensures forall b :: b in Collected(d.overtrading, d.lossAversion, d.revengeTrading) ==> ScoreInRange(b)
  {
  }

  /** Results in detector order are ranked strictly. */
  lemma CollectedRanked(d: Detections)
    requires d.overtrading.bias.Some? ==> d.overtrading.bias.value.kind == Overtrading
    requires d.lossAversion.bias.Some? ==> d.lossAversion.bias.value.kind == LossAversion
    requires d.revengeTrading.bias.Some? ==> d.revengeTrading.bias.value.kind == RevengeTrading
    ensures StrictlyRanked(Collected(d.overtrading, d.lossAversion, d.revengeTrading), Rank)
  {
  }

  /** What a report says about a cleaned frame and the detectors' answers
      on it: the counts, the echoed trades and the hour histogram of the
      frame, each detector's flags, and every result found, highest score
      first, with their aggregate. */
  predicate Reports(r: Report, cleaned: Cleaned, d: Detections) {
    && r.stats == cleaned.stats
    && r.totalTrades == |cleaned.table.rows|
    && r.trades == Echo(cleaned.table)
    && r.hourCounts == HourCounts(cleaned.table.rows)
    && r.flags == TradeFlags(d.overtrading.flagged, d.lossAversion.flagged, d.revengeTrading.flagged)
    && multiset(r.biases) == multiset(Collected(d.overtrading, d.lossAversion, d.revengeTrading))
    && HighestFirst(r.biases)
    && r.biasScore == BiasScore(r.biases)
  }

  /** The bounds every report keeps. */
  predicate WellBounded(r: Report) {
    && |r.trades| == Min(TradesCap, r.totalTrades)
    && (forall i, j :: 0 <= i < j < |r.trades| ==> r.trades[i].timestamp <= r.trades[j].timestamp)
    && |r.hourCounts| == HoursPerDay && SumNat(r.hourCounts) == r.totalTrades
    && |r.biases| <= 3
    && AllInRange(r.biases)
    && (r.biases == [] ==> r.biasScore == 0)
    && (r.biases != [] ==> 15 <= r.biasScore <= 100)
    && (forall i :: i in r.flags.overtrading ==> i < r.totalTrades)
    && (forall i :: i in r.flags.lossAversion ==> i < r.totalTrades)
    && (forall i :: i in r.flags.revengeTrading ==> i < r.totalTrades)
  }

  /** The report for a cleaned frame with at least one trade. */
  function ReportFor(cleaned: Cleaned, d: Detections): (r: Report)
    requires |cleaned.table.rows| > 0
    requires Chronological(cleaned.table.rows)
    requires WellRanged(d, |cleaned.table.rows|)
    ensures Reports(r, cleaned, d)
    ensures WellBounded(r)
  {
    var rows := cleaned.table.rows;
    HourCountsTotal(rows);
    var found := Collected(d.overtrading, d.lossAversion, d.revengeTrading);
    CollectedInRange(d);
    var biases := Ranked(found);
    var trades := Echo(cleaned.table);
    EchoChronological(cleaned.table);
    Report(biases, TradeFlags(d.overtrading.flagged, d.lossAversion.flagged, d.revengeTrading.flagged),
           BiasScore(biases), trades, |rows|, HourCounts(rows), cleaned.stats)
  }

  lemma EchoChronological(table: Table<Trade>)
    requires Chronological(table.rows)
    ensures var e := Echo(table);
      forall i, j :: 0 <= i < j < |e| ==> e[i].timestamp <= e[j].timestamp
  {
    var e := Echo(table);
    assert forall i :: 0 <= i < |e| ==> e[i].timestamp == Time(table.rows[i]);
  }

  /** The results present, highest score first. */
  function Ranked(found: seq<Bias>): (r: seq<Bias>)
    requires |found| <= 3
    requires forall b :: b in found ==> ScoreInRange(b)
    ensures |r| <= 3
    ensures HighestFirst(r) && AllInRange(r)
    ensures r != [] ==> 15 <= BiasScore(r) <= 100
    ensures multiset(r) == multiset(found)
  {
    var biases := SortByKey(found, ScoreDesc);
    RankedScores(found, biases);
    biases
  }

  /** The detectors find nothing on an empty frame. */
  lemma NothingOnEmpty(table: Table<Trade>, fmt: FixedPoint)
    requires table.rows == []
    ensures DetectAll(table, fmt) == Detections(NoDetection, NoDetection, NoDetection)
  {
  }

  /** The report of a cleaned frame: the empty report when no trade is
      left, otherwise the detectors' results. */
  function ReportOf(cleaned: Cleaned, fmt: FixedPoint): (r: Report)
    requires Chronological(cleaned.table.rows)
    ensures Reports(r, cleaned, DetectAll(cleaned.table, fmt))
    ensures WellBounded(r)
    ensures r.totalTrades == 0 ==>
      r.biases == [] && r.biasScore == 0 && r.flags == TradeFlags([], [], []) && r.trades == []
  {
    if |cleaned.table.rows| == 0 then
      HourCountsTotal([]);
      NothingOnEmpty(cleaned.table, fmt);
      Report([], TradeFlags([], [], []), 0, [], 0, HourCounts([]), cleaned.stats)
    else ReportFor(cleaned, DetectAll(cleaned.table, fmt))
  }

  /** `run_analysis` on a parsed frame; `quantile` is the frame's quantile
      and `fmt` renders numbers in descriptions. */
  function RunAnalysis(table: Table<Record>, quantile: Quantile, fmt: FixedPoint): (r: Report)
    ensures Reports(r, Preprocess.Preprocess(table, quantile), DetectAll(Preprocess.Preprocess(table, quantile).table, fmt))
    ensures WellBounded(r)
    ensures r.totalTrades == 0 ==>
      r.biases == [] && r.biasScore == 0 && r.flags == TradeFlags([], [], []) && r.trades == []
  {
    ReportOf(Preprocess.Preprocess(table, quantile), fmt)
  }

  /** `run_analysis` over the corrected cleaning, which counts every
      dropped row. */
  function RunAnalysisFixed(table: Table<Record>, quantile: Quantile, fmt: FixedPoint): (r: Report)
    ensures Reports(r, PreprocessFixed(table, quantile), DetectAll(PreprocessFixed(table, quantile).table, fmt))
    ensures WellBounded(r)
    ensures r.stats.rowsBefore ==
      r.stats.droppedInvalid + r.stats.droppedOutliers + r.stats.droppedDuplicates + r.totalTrades
  {
    ReportOf(PreprocessFixed(table, quantile), fmt)
  }

  /** The corrected analysis differs from the one as written only in the
      invalid-row count. */
  lemma FixedReportDiffersOnlyInStats(table: Table<Record>, quantile: Quantile, fmt: FixedPoint)
    ensures RunAnalysisFixed(table, quantile, fmt) ==
      RunAnalysis(table, quantile, fmt).(stats := PreprocessFixed(table, quantile).stats)
  {
    FixedDiffersOnlyInInvalidCount(table, quantile);
  }

  lemma RankedScores(found: seq<Bias>, biases: seq<Bias>)
    requires forall b :: b in found ==> ScoreInRange(b)
    requires biases == SortByKey(found, ScoreDesc)
    ensures forall i :: 0 <= i < |biases| ==> 15 <= biases[i].score <= 100
    ensures forall i, j :: 0 <= i < j < |biases| ==> biases[i].score >= biases[j].score
    ensures biases != [] ==> 15 <= BiasScore(biases) <= 100
  {
    forall i | 0 <= i < |biases|
      ensures ScoreInRange(biases[i])
    {
      assert biases[i] in multiset(found);
    }
    assert forall i, j :: 0 <= i < j < |biases| ==> ScoreDesc(biases[i]) <= ScoreDesc(biases[j]);
    if biases != [] {
      BiasScoreBetween(biases, 15, 100);
    }
  }

  /** Results with equal scores keep detector order: overtrading, loss
      aversion, revenge trading. */
  lemma TiesKeepDetectorOrder(table: Table<Record>, quantile: Quantile, fmt: FixedPoint)
    ensures SortedStably(RunAnalysis(table, quantile, fmt).biases, ScoreDesc, Rank)
  {
    var cleaned := Preprocess.Preprocess(table, quantile);
    if |cleaned.table.rows| > 0 {
      var d := DetectAll(cleaned.table, fmt);
      assert RunAnalysis(table, quantile, fmt) == ReportFor(cleaned, d);
      assert ReportFor(cleaned, d).biases == SortByKey(Collected(d.overtrading, d.lossAversion, d.revengeTrading), ScoreDesc);
      CollectedRanked(d);
      SortByKeyStable(Collected(d.overtrading, d.lossAversion, d.revengeTrading), ScoreDesc, Rank);
    }
  }
}

=== FILE: biases.dfy ===
/** What a detector reports: the kind of bias, its severity band, a 0-100
    score, and the rows it holds responsible. */
module Biases {
  import opened Util

  datatype BiasKind = Overtrading | LossAversion | RevengeTrading

  datatype Severity = Low | Medium | High | Critical

  /** The `type` string of a result. */
  function KindName(k: BiasKind): string {
    match k
    case Overtrading => "overtrading"
    case LossAversion => "loss_aversion"
    case RevengeTrading => "revenge_trading"
  }

  function SeverityName(s: Severity): string {
    match s
    case Low => "low"
    case Medium => "medium"
    case High => "high"
    case Critical => "critical"
  }

  /** Severity bands in increasing order. */
  function Level(s: Severity): nat {
    match s
    case Low => 0
    case Medium => 1
    case High => 2
    case Critical => 3
  }

  /** The detector-specific figures of a result. */
  datatype Details =
    | OvertradingDetails(maxTradesPerHour: nat, biasedTradeCount: nat)
    | LossAversionDetails(avgDurationWinMin: real, avgDurationLossMin: real,
                          avgWin: real, avgLoss: real, lossWinRatio: real)
    | RevengeDetails(revengeTradeCount: nat)

  datatype Bias = Bias(
    kind: BiasKind,
    severity: Severity,
    title: string,
    description: string,
    details: Details,
    score: int)

  /** A detector's answer: a result or none, and the flagged row indices
      (ascending). */
  datatype Detection = Detection(bias: Option<Bias>, flagged: seq<nat>)

  const NoDetection := Detection(None, [])

  /** The severity band of a score: strictly above `critical`, above
      `high`, above `medium`, or low. */
  function Grade(score: real, critical: real, high: real, medium: real): (r: Severity)
    ensures r == Critical <==> score > critical
    ensures r == High <==> !(score > critical) && score > high
    ensures r == Medium <==> !(score > critical) && !(score > high) && score > medium
  {
    if score > critical then Critical
    else if score > high then High
    else if score > medium then Medium
    else Low
  }

  /** A higher score never gets a lower band. */
  lemma GradeMonotone(a: real, b: real, critical: real, high: real, medium: real)
    requires medium <= high <= critical
    requires a <= b
    ensures Level(Grade(a, critical, high, medium)) <= Level(Grade(b, critical, high, medium))
  {
  }

  /** Python's `round(x, 2)`, taken on the exact value. */
  function Round2(x: real): (r: real)
    ensures x - 0.005 <= r <= x + 0.005
  {
    RoundHalfEven(x * 100.0) as real / 100.0
  }
}

=== FILE: camel.dfy ===
/** The snake_case to camelCase helper `to_camel`. The first
    underscore-separated component is kept as it is, every later one is
    title-cased, and the underscores are dropped. */
module Camel {
  import Parse

  const Underscore := '_'

  predicate IsLetter(c: char) {
    'a' <= c <= 'z' || 'A' <= c <= 'Z'
  }

  function UpperChar(c: char): char {
    if 'a' <= c <= 'z' then (c as int - 32) as char else c
  }

  function Underscores(s: string): nat {
    if s == [] then 0 else (if s[0] == Underscore then 1 else 0) + Underscores(s[1..])
  }

  /** `str.split("_")`: the pieces between underscores, empty ones included. */
  function Split(s: string): (r: seq<string>)
    ensures |r| == Underscores(s) + 1
    ensures forall i :: 0 <= i < |r| ==> Underscore !in r[i]
  {
    if s == [] then [[]]
    else
      var rest := Split(s[1..]);
      if s[0] == Underscore then [[]] + rest
      else [[s[0]] + rest[0]] + rest[1..]
  }

  /** `"_".join(parts)`. */
  function Join(parts: seq<string>): string
    requires |parts| >= 1
  {
    if |parts| == 1 then parts[0] else parts[0] + [Underscore] + Join(parts[1..])
  }

  /** Joining the pieces gives back the name. */
  lemma {:induction false} JoinSplit(s: string)
    ensures Join(Split(s)) == s
  {
    if s != [] {
      JoinSplit(s[1..]);
      var rest := Split(s[1..]);
      if s[0] != Underscore {
        if |rest| == 1 {
          assert Join(Split(s)) == [s[0]] + rest[0];
        } else {
          assert Join(Split(s)) == ([s[0]] + rest[0]) + [Underscore] + Join(rest[1..]);
        }
      }
    }
  }

  /** Splitting underscore-free pieces joined by underscores gives them back. */
  lemma {:induction false} SplitJoin(parts: seq<string>)
    requires |parts| >= 1
    requires forall i :: 0 <= i < |parts| ==> Underscore !in parts[i]
    ensures Split(Join(parts)) == parts
    decreases |parts|, |parts[0]|
  {
    if parts[0] == [] {
      if |parts| > 1 {
        assert Join(parts) == [Underscore] + Join(parts[1..]);
        SplitJoin(parts[1..]);
        assert Join(parts)[1..] == Join(parts[1..]);
      }
    } else {
      var tail := [parts[0][1..]] + parts[1..];
      assert Underscore !in tail[0];
      assert forall i :: 1 <= i < |tail| ==> tail[i] == parts[i];
      SplitJoin(tail);
      if |parts| == 1 {
        assert Join(parts)[1..] == Join(tail);
      } else {
        assert Join(parts)[1..] == Join(tail);
      }
      assert parts[0] == [parts[0][0]] + parts[0][1..];
    }
  }

  /** `str.title()` on ASCII: a letter is upper-cased after a non-letter
      and lower-cased after a letter; other characters are kept. */
  function TitleFrom(s: string, afterLetter: bool): (r: string)
    ensures |r| == |s|
  {
    if s == [] then []
    else if IsLetter(s[0]) then
      [if afterLetter then Parse.LowerChar(s[0]) else UpperChar(s[0])] + TitleFrom(s[1..], true)
    else [s[0]] + TitleFrom(s[1..], false)
  }

  function Title(s: string): string {
    TitleFrom(s, false)
  }

  /** The case a title-cased character takes, from itself and what precedes it. */
  function TitleChar(c: char, afterLetter: bool): char {
    if !IsLetter(c) then c else if afterLetter then Parse.LowerChar(c) else UpperChar(c)
  }

  /** One position of the title-cased text: the letter's case follows
      from whether the character before it is a letter. */
  lemma {:induction false} TitleFromAt(s: string, afterLetter: bool, i: nat)
    requires i < |s|
    ensures TitleFrom(s, afterLetter)[i] == TitleChar(s[i], if i == 0 then afterLetter else IsLetter(s[i - 1]))
  {
    if i > 0 {
      TitleFromAt(s[1..], IsLetter(s[0]), i - 1);
      assert TitleFrom(s, afterLetter)[i] == TitleFrom(s[1..], IsLetter(s[0]))[i - 1];
      assert s[1..][i - 1] == s[i];
      if i > 1 {
        assert s[1..][i - 2] == s[i - 1];
      }
    }
  }

  /** Whether the character before position `i` is a letter. */
  predicate AfterLetter(s: string, i: int)
    requires 0 <= i <= |s|
  {
    i > 0 && IsLetter(s[i - 1])
  }

  lemma TitleAt(s: string, i: nat)
    requires i < |s|
    ensures Title(s)[i] == TitleChar(s[i], AfterLetter(s, i))
  {
    TitleFromAt(s, false, i);
  }

  /** Character by character: each letter is upper-cased exactly when it
      starts a run of letters. */
  lemma {:induction false} TitleSpec(s: string)
    ensures forall i :: 0 <= i < |s| ==>
      Title(s)[i] == TitleChar(s[i], AfterLetter(s, i))
  {
    forall i | 0 <= i < |s|
      ensures Title(s)[i] == TitleChar(s[i], AfterLetter(s, i))
    {
      TitleAt(s, i);
    }
  }

  /** A title-cased character is a letter exactly when the original was,
      it is an underscore only if the original was, and casing it again
      in the same position changes nothing. */
  lemma TitleCharFacts(c: char, afterLetter: bool)
    ensures IsLetter(TitleChar(c, afterLetter)) <==> IsLetter(c)
    ensures TitleChar(c, afterLetter) == Underscore ==> c == Underscore
    ensures TitleChar(TitleChar(c, afterLetter), afterLetter) == TitleChar(c, afterLetter)
  {
  }

  /** Title-casing twice changes nothing more. */
  lemma TitleIdempotent(s: string)
    ensures Title(Title(s)) == Title(s)
  {
    var t := Title(s);
    TitleSpec(s);
    TitleSpec(t);
    forall i | 0 <= i < |s|
      ensures IsLetter(t[i]) <==> IsLetter(s[i])
    {
      TitleCharFacts(s[i], AfterLetter(s, i));
    }
    forall i | 0 <= i < |s|
      ensures Title(t)[i] == t[i]
    {
      TitleCharFacts(s[i], AfterLetter(s, i));
    }
  }

  /** Title-casing keeps every non-letter, the underscore included. */
  lemma TitleKeepsNonLetters(s: string)
    ensures Underscore in Title(s) <==> Underscore in s
  {
    TitleSpec(s);
    var t := Title(s);
    if Underscore in t {
      var i :| 0 <= i < |t| && t[i] == Underscore;
      TitleCharFacts(s[i], AfterLetter(s, i));
    }
    if Underscore in s {
      var i :| 0 <= i < |s| && s[i] == Underscore;
      assert t[i] == TitleChar(s[i], AfterLetter(s, i));
    }
  }

  function Concat(parts: seq<string>): string {
    if parts == [] then [] else parts[0] + Concat(parts[1..])
  }

  function TitleAll(parts: seq<string>): (r: seq<string>)
    ensures |r| == |parts|
    ensures forall i :: 0 <= i < |r| ==> r[i] == Title(parts[i])
  {
    if parts == [] then [] else [Title(parts[0])] + TitleAll(parts[1..])
  }

  /** `to_camel`: the result has no underscore left, and it is shorter
      than the name by exactly its number of underscores. */
  function ToCamel(s: string): (r: string)
    ensures Underscore !in r
    ensures |r| == |s| - Underscores(s)
  {
    var parts := Split(s);
    var titled := TitleAll(parts[1..]);
    TitledFree(parts[1..]);
    ConcatFree(titled);
    JoinSplit(s);
    JoinLength(parts);
    ConcatTitleLength(parts[1..]);
    assert Concat(parts) == parts[0] + Concat(parts[1..]);
    parts[0] + Concat(titled)
  }

  lemma TitledFree(parts: seq<string>)
    requires forall i :: 0 <= i < |parts| ==> Underscore !in parts[i]
    ensures forall i :: 0 <= i < |parts| ==> Underscore !in TitleAll(parts)[i]
  {
    forall i | 0 <= i < |parts|
      ensures Underscore !in TitleAll(parts)[i]
    {
      TitleKeepsNonLetters(parts[i]);
    }
  }

  lemma {:induction false} ConcatFree(parts: seq<string>)
    requires forall i :: 0 <= i < |parts| ==> Underscore !in parts[i]
    ensures Underscore !in Concat(parts)
  {
    if parts != [] {
      ConcatFree(parts[1..]);
    }
  }

  /** A name without underscores is left as it is. */
  lemma NoUnderscoreUnchanged(s: string)
    requires Underscore !in s
    ensures ToCamel(s) == s
  {
    SplitJoin([s]);
  }

  /** Converting twice is converting once. */
  lemma ToCamelIdempotent(s: string)
    ensures ToCamel(ToCamel(s)) == ToCamel(s)
  {
    NoUnderscoreUnchanged(ToCamel(s));
  }

  /** The text before the first underscore is kept as it is. */
  lemma FirstComponentKept(s: string, k: nat)
    requires k <= |s| && Underscore !in s[..k]
    requires k < |s| ==> s[k] == Underscore
    ensures |ToCamel(s)| >= k && ToCamel(s)[..k] == s[..k]
  {
    FirstPiece(s, k);
  }

  lemma {:induction false} FirstPiece(s: string, k: nat)
    requires k <= |s| && Underscore !in s[..k]
    requires k < |s| ==> s[k] == Underscore
    ensures Split(s)[0] == s[..k]
  {
    if k > 0 {
      assert Underscore !in s[1..][..k - 1] by {
        assert s[1..][..k - 1] == s[..k][1..];
      }
      FirstPiece(s[1..], k - 1);
      assert s[0] != Underscore by {
        assert s[0] == s[..k][0];
      }
      assert s[..k] == [s[0]] + s[1..][..k - 1];
    }
  }

  lemma {:induction false} JoinLength(parts: seq<string>)
    requires |parts| >= 1
    ensures |Join(parts)| == |Concat(parts)| + |parts| - 1
  {
    if |parts| > 1 {
      JoinLength(parts[1..]);
    } else {
      assert Concat(parts) == parts[0] + Concat([]);
    }
  }

  lemma {:induction false} ConcatTitleLength(parts: seq<string>)
    ensures |Concat(TitleAll(parts))| == |Concat(parts)|
  {
    if parts != [] {
      ConcatTitleLength(parts[1..]);
      assert TitleAll(parts)[1..] == TitleAll(parts[1..]);
    }
  }

  /** Empty pieces from doubled underscores add nothing. */
  lemma DoubledUnderscore()
    ensures ToCamel("a__b") == "aB"
  {
    DoubledPieces();
    assert Title("") == "";
    assert Title("b") == "B";
  }

  /** A later piece is re-cased as a whole: `user_id` and `user_ID`
      both become `userId`. */
  lemma UserIdSpellings()
    ensures ToCamel("user_id") == "userId"
    ensures ToCamel("user_ID") == "userId"
  {
    assert "user" + [Underscore] + "id" == "user_id";
    TwoPiecesCamel("user", "id");
    assert Title("id") == "Id";
    assert "user" + [Underscore] + "ID" == "user_ID";
    TwoPiecesCamel("user", "ID");
    assert Title("ID") == "Id";
  }

  /** Two underscore-free pieces: the first is kept, the second title-cased. */
  lemma TwoPiecesCamel(a: string, b: string)
    requires Underscore !in a && Underscore !in b
    ensures ToCamel(a + [Underscore] + b) == a + Title(b)
  {
    TwoPieces(a, b);
    assert Split(a + [Underscore] + b)[1..] == [b];
    assert Concat(TitleAll([b])) == Title(b) + Concat([]);
  }

  lemma TwoPieces(a: string, b: string)
    requires Underscore !in a && Underscore !in b
    ensures Split(a + [Underscore] + b) == [a, b]
  {
    assert Join([a, b]) == a + [Underscore] + b;
    SplitJoin([a, b]);
  }

  lemma DoubledPieces()
    ensures Split("a__b") == ["a", "", "b"]
  {
    assert Join(["a", "", "b"]) == "a__b";
    SplitJoin(["a", "", "b"]);
  }

  /** A purely alphabetic piece gets its first letter upper-cased and the
      rest lower-cased. */
  lemma TitleOfWord(w: string)
    requires |w| > 0 && forall i :: 0 <= i < |w| ==> IsLetter(w[i])
    ensures Title(w) == [UpperChar(w[0])] + Parse.Lower(w[1..])
  {
    TitleSpec(w);
    var r := [UpperChar(w[0])] + Parse.Lower(w[1..]);
    forall i | 0 <= i < |w|
      ensures Title(w)[i] == r[i]
    {
      if i > 0 {
        assert IsLetter(w[i - 1]);
        assert r[i] == Parse.Lower(w[1..])[i - 1];
      }
    }
  }
}

=== FILE: coach.dfy ===
/** The AI coach's request assembly: a plain-text summary of the trader's
    recent trades and detected biases, wrapped in a system prompt and
    followed by the chat history and the user's message. The request to
    the language-model gateway itself is not part of this model. */
module Coach {
  import opened Util

  /** A trade as the client sends it; a missing or null field is `None`. */
  datatype CoachTrade = CoachTrade(pnl: Option<real>, asset: Option<string>)

  /** A detected bias as the client sends it. */
  datatype CoachBias = CoachBias(title: Field, severity: Field, description: Field)

  /** A turn of earlier conversation, as sent; a missing or null role is `None`. */
  datatype ChatTurn = ChatTurn(role: Option<string>, content: Field)

  /** A message of the chat-completion request; `None` is a JSON null. */
  datatype Message = Message(role: Option<string>, content: Option<string>)

  datatype CoachRequest = CoachRequest(
    message: string,
    trades: seq<CoachTrade>,
    biases: seq<CoachBias>,
    history: seq<ChatTurn>)

  /** Either the fixed reply for a missing key, or the messages to send. */
  datatype Outcome = NotConfigured(reply: string) | Send(messages: seq<Message>)

  const MaxAssets := 5
  const NoTrades := "No trading data available yet."
  const NoBiases := "No biases detected yet."
  const NotConfiguredReply := "AI Coach is not configured. Set LOVABLE_API_KEY."

  /** A missing or null P/L counts as zero. */
  function PnlOf(t: CoachTrade): real {
    if t.pnl.Some? then t.pnl.value else 0.0
  }

  function TotalPnl(trades: seq<CoachTrade>): real {
    Sum(MapSeq(PnlOf, trades))
  }

  predicate IsWin(t: CoachTrade) {
    PnlOf(t) > 0.0
  }

  function Wins(trades: seq<CoachTrade>): (r: nat)
    ensures r <= |trades|
  {
    |Filter(trades, IsWin)|
  }

  /** The percentage of winning trades. */
  function WinRate(trades: seq<CoachTrade>): (r: real)
    requires |trades| > 0
    ensures 0.0 <= r <= 100.0
  {
    ShareBounds(Wins(trades) as real, |trades| as real);
    Wins(trades) as real / |trades| as real * 100.0
  }

  lemma ShareBounds(part: real, whole: real)
    requires 0.0 <= part <= whole && whole > 0.0
    ensures 0.0 <= part / whole * 100.0 <= 100.0
  {
    assert part / whole * whole == part;
    assert part / whole <= 1.0;
  }

  /** A missing asset reads as the empty string. */
  function AssetOf(t: CoachTrade): string {
    if t.asset.Some? then t.asset.value else ""
  }

  function SameText(s: string): string {
    s
  }

  /** The first five distinct assets, in order of first appearance. */
  function TopAssets(trades: seq<CoachTrade>): (r: seq<string>)
    ensures |r| == Min(MaxAssets, |KeysOf(MapSeq(AssetOf, trades), SameText)|)
    ensures forall i, j :: 0 <= i < j < |r| ==> r[i] != r[j]
    ensures forall a :: a in r ==> a in MapSeq(AssetOf, trades)
    ensures |KeysOf(MapSeq(AssetOf, trades), SameText)| <= MaxAssets ==>
      forall t :: t in trades ==> AssetOf(t) in r
  {
    var names := MapSeq(AssetOf, trades);
    var unique := UniqueBy(names, SameText);
    var r := Take(unique, MaxAssets);
    TopAssetsFacts(trades, names, unique, r);
    r
  }

  lemma TopAssetsFacts(trades: seq<CoachTrade>, names: seq<string>, unique: seq<string>, r: seq<string>)
    requires names == MapSeq(AssetOf, trades)
    requires unique == UniqueBy(names, SameText)
    requires r == Take(unique, MaxAssets)
    ensures forall a :: a in r ==> a in names
    ensures |r| == Min(MaxAssets, |KeysOf(names, SameText)|)
    ensures |KeysOf(names, SameText)| <= MaxAssets ==> forall t :: t in trades ==> AssetOf(t) in r
  {
    KeysDistinctCard(unique, SameText);
    forall a | a in r
      ensures a in names
    {
      var i :| 0 <= i < |r| && r[i] == a;
      assert unique[i] in multiset(names);
    }
    if |KeysOf(names, SameText)| <= MaxAssets {
      KeysDistinctCard(unique, SameText);
      assert |unique| <= MaxAssets;
      assert r == unique;
      forall t | t in trades
        ensures AssetOf(t) in r
      {
        var i :| 0 <= i < |trades| && trades[i] == t;
        assert names[i] in names;
        assert SameText(AssetOf(t)) in KeysOf(unique, SameText);
      }
    }
  }

  /** The listed assets keep the order in which they first appear. */
  lemma TopAssetsInFirstAppearanceOrder(trades: seq<CoachTrade>)
    ensures var names := MapSeq(AssetOf, trades);
      var r := TopAssets(trades);
      forall a, b :: 0 <= a < b < |r| ==>
        r[a] in KeysOf(names, SameText) && r[b] in KeysOf(names, SameText) &&
        FirstIndex(names, SameText, r[a]) < FirstIndex(names, SameText, r[b])
  {
    var names := MapSeq(AssetOf, trades);
    UniqueByFirstAppearanceOrder(names, SameText);
    var unique := UniqueBy(names, SameText);
    var r := TopAssets(trades);
    assert forall a :: 0 <= a < |r| ==> r[a] == unique[a];
  }

  /** An asset left off the list first appears after every listed one:
      the list holds the first five by first appearance. */
  lemma TopAssetsAreFirst(trades: seq<CoachTrade>, a: string)
    requires a in MapSeq(AssetOf, trades) && a !in TopAssets(trades)
    ensures var names := MapSeq(AssetOf, trades);
      var r := TopAssets(trades);
      a in KeysOf(names, SameText) &&
      forall j :: 0 <= j < |r| ==> r[j] in KeysOf(names, SameText) && FirstIndex(names, SameText, r[j]) < FirstIndex(names, SameText, a)
  {
    var names := MapSeq(AssetOf, trades);
    var unique := UniqueBy(names, SameText);
    var r := TopAssets(trades);
    assert SameText(a) in KeysOf(names, SameText);
    assert a in KeysOf(unique, SameText);
    var p :| 0 <= p < |unique| && unique[p] == a;
    assert forall j :: 0 <= j < |r| ==> r[j] == unique[j];
    assert p >= |r|;
    forall j | 0 <= j < |r|
      ensures r[j] in KeysOf(names, SameText) && FirstIndex(names, SameText, r[j]) < FirstIndex(names, SameText, a)
    {
      KeptPairOrder(names, SameText, j, p);
    }
  }

  /** `sep.join(parts)`. */
  function JoinWith(sep: string, parts: seq<string>): (r: string)
    ensures parts == [] ==> r == []
    ensures |parts| == 1 ==> r == parts[0]
  {
    if parts == [] then []
    else if |parts| == 1 then parts[0]
    else parts[0] + sep + JoinWith(sep, parts[1..])
  }

  /** A joined list starts with its first part and ends with its last. */
  lemma {:induction false} JoinWithEnds(sep: string, parts: seq<string>)
    requires |parts| >= 1
    ensures StartsWith(JoinWith(sep, parts), parts[0])
    ensures EndsWith(JoinWith(sep, parts), parts[|parts| - 1])
  {
    if |parts| > 1 {
      JoinWithEnds(sep, parts[1..]);
      var rest := JoinWith(sep, parts[1..]);
      StartsWithAppend(parts[0], sep + rest, parts[0]);
      assert parts[0] + sep + rest == parts[0] + (sep + rest);
      EndsWithAppend(parts[0] + sep, rest, parts[|parts| - 1]);
    } else {
      assert parts[0][..|parts[0]|] == parts[0];
      assert parts[0][|parts[0]| - |parts[0]|..] == parts[0];
    }
  }

  /** The joined length: every part, and one separator between each two. */
  lemma {:induction false} JoinWithLength(sep: string, parts: seq<string>)
    requires |parts| >= 1
    ensures |JoinWith(sep, parts)| == |Concat(parts)| + (|parts| - 1) * |sep|
  {
    if |parts| > 1 {
      JoinWithLength(sep, parts[1..]);
    }
  }

  /** Where part `i` starts in the joined text: every earlier part and
      its separator come before it. */
  function Offset(sep: string, parts: seq<string>, i: nat): nat
    requires i <= |parts|
  {
    if i == 0 then 0 else |parts[0]| + |sep| + Offset(sep, parts[1..], i - 1)
  }

  /** Part `i` of a join sits at its offset. */
  lemma {:induction false} JoinWithAt(sep: string, parts: seq<string>, i: nat)
    requires i < |parts|
    ensures Offset(sep, parts, i) + |parts[i]| <= |JoinWith(sep, parts)|
    ensures JoinWith(sep, parts)[Offset(sep, parts, i)..Offset(sep, parts, i) + |parts[i]|] == parts[i]
  {
    if |parts| == 1 {
      assert JoinWith(sep, parts) == parts[0];
    } else {
      var rest := JoinWith(sep, parts[1..]);
      var head := parts[0] + sep;
      assert JoinWith(sep, parts) == head + rest;
      if i == 0 {
        assert (head + rest)[..|parts[0]|] == parts[0];
      } else {
        JoinWithAt(sep, parts[1..], i - 1);
        var o := Offset(sep, parts[1..], i - 1);
        assert Offset(sep, parts, i) == |head| + o;
        assert parts[1..][i - 1] == parts[i];
        SliceShift(head, rest, o, o + |parts[i]|);
      }
    }
  }

  /** When another part follows part `i`, the separator sits right after it. */
  lemma {:induction false} JoinWithSepAt(sep: string, parts: seq<string>, i: nat)
    requires i + 1 < |parts|
    ensures Offset(sep, parts, i) + |parts[i]| + |sep| <= |JoinWith(sep, parts)|
    ensures JoinWith(sep, parts)[Offset(sep, parts, i) + |parts[i]|..Offset(sep, parts, i) + |parts[i]| + |sep|] == sep
  {
    var rest := JoinWith(sep, parts[1..]);
    var head := parts[0] + sep;
    assert JoinWith(sep, parts) == head + rest;
    if i == 0 {
      SepAfterHead(parts[0], sep, rest);
    } else {
      JoinWithSepAt(sep, parts[1..], i - 1);
      var o := Offset(sep, parts[1..], i - 1);
      assert Offset(sep, parts, i) == |head| + o;
      assert parts[1..][i - 1] == parts[i];
      SliceShift(head, rest, o + |parts[i]|, o + |parts[i]| + |sep|);
    }
  }

  lemma SepAfterHead(part: string, sep: string, rest: string)
    ensures (part + sep + rest)[|part|..|part| + |sep|] == sep
  {
    assert (part + sep + rest)[|part|..|part| + |sep|] == (part + sep)[|part|..];
  }

  lemma SliceShift(a: string, b: string, lo: nat, hi: nat)
    requires lo <= hi <= |b|
    ensures (a + b)[|a| + lo..|a| + hi] == b[lo..hi]
  {
  }

  function Concat(parts: seq<string>): string {
    if parts == [] then [] else parts[0] + Concat(parts[1..])
  }

  const CountOpening := "The trader has "
  const CountClosing := " recent trades. "
  const AssetsOpening := "Most traded assets: "
  const BiasHeading := "Detected biases: "

  /** The opening sentence: how many trades there are. */
  function CountSentence(trades: seq<CoachTrade>): string {
    CountOpening + NatToString(|trades|) + CountClosing
  }

  /** The trade half of the trader context; `fmt` renders the numbers.
      The count and total sentences come first; then the no-data sentence
      when there are no trades, otherwise the win rate and the list of
      traded assets. */
  function TradeSummary(trades: seq<CoachTrade>, fmt: FixedPoint): (r: string)
    ensures trades == [] ==> r == CountSentence(trades) + TotalSentence(trades, fmt) + NoTrades
    ensures trades != [] ==>
      r == CountSentence(trades) + TotalSentence(trades, fmt) + WinRateSentence(trades, fmt) + AssetList(trades)
    ensures StartsWith(r, CountSentence(trades))
    ensures trades == [] ==> EndsWith(r, NoTrades)
    ensures trades != [] ==> EndsWith(r, AssetList(trades))
  {
    var counts := CountSentence(trades) + TotalSentence(trades, fmt);
    StartsWithSelf(CountSentence(trades));
    StartsWithAppend(CountSentence(trades), TotalSentence(trades, fmt), CountSentence(trades));
    var r := if trades == [] then counts + NoTrades else counts + WinRateSentence(trades, fmt) + AssetList(trades);
    TradeSummaryEnds(trades, counts, if trades == [] then NoTrades else WinRateSentence(trades, fmt), AssetList(trades), r);
    r
  }

  /** The closing sentence: the first five assets, comma-separated. */
  function AssetList(trades: seq<CoachTrade>): string {
    AssetsOpening + JoinWith(", ", TopAssets(trades)) + "."
  }

  lemma TradeSummaryEnds(trades: seq<CoachTrade>, counts: string, middle: string, tail: string, r: string)
    requires StartsWith(counts, CountSentence(trades))
    requires trades == [] ==> r == counts + middle && middle == NoTrades
    requires trades != [] ==> r == counts + middle + tail
    ensures StartsWith(r, CountSentence(trades))
    ensures trades == [] ==> EndsWith(r, NoTrades)
    ensures trades != [] ==> EndsWith(r, tail)
  {
    if trades == [] {
      StartsWithAppend(counts, middle, CountSentence(trades));
      EndsWithSelf(NoTrades);
      EndsWithAppend(counts, middle, NoTrades);
    } else {
      StartsWithAppend(counts, middle + tail, CountSentence(trades));
      assert r == counts + (middle + tail);
      EndsWithSelf(tail);
      EndsWithAppend(counts + middle, tail, tail);
    }
  }

  function TotalSentence(trades: seq<CoachTrade>, fmt: FixedPoint): string {
    "Total P/L: $" + fmt(TotalPnl(trades), 2) + ". "
  }

  function WinRateSentence(trades: seq<CoachTrade>, fmt: FixedPoint): string
    requires |trades| > 0
  {
    "Win rate: " + fmt(WinRate(trades), 0) + "%. "
  }

  /** A field of a client dictionary read with `get(key, '')`: absent,
      present with null, or present with text. */
  datatype Field = Absent | Null | Given(text: string)

  /** A field as an f-string renders `get(key, '')`: absent reads as the
      empty default, null as `None`. */
  function Text(field: Field): string {
    match field
    case Absent => ""
    case Null => "None"
    case Given(t) => t
  }

  /** `title (severity): description`. */
  function BiasEntry(b: CoachBias): string {
    Text(b.title) + " (" + Text(b.severity) + "): " + Text(b.description)
  }

  /** The bias half of the trader context: the no-bias sentence exactly
      when there are none, otherwise the heading and one entry per bias,
      in order, joined by `; ` (see `JoinWithAt` for where each sits). */
  function BiasSummary(biases: seq<CoachBias>): (r: string)
    ensures biases == [] <==> r == NoBiases
    ensures biases != [] ==> r == BiasHeading + JoinWith("; ", MapSeq(BiasEntry, biases))
    ensures biases != [] ==>
      StartsWith(r, BiasHeading + BiasEntry(biases[0])) && EndsWith(r, BiasEntry(biases[|biases| - 1]))
  {
    if biases == [] then NoBiases
    else
      var entries := MapSeq(BiasEntry, biases);
      var joined := JoinWith("; ", entries);
      JoinWithEnds("; ", entries);
      var s := BiasHeading + joined;
      assert s[0] == 'D' && NoBiases[0] == 'N';
      EndsWithAppend(BiasHeading, joined, entries[|entries| - 1]);
      assert s[..|BiasHeading| + |entries[0]|] == BiasHeading + joined[..|entries[0]|];
      s
  }

  predicate StartsWith(s: string, prefix: string) {
    |s| >= |prefix| && s[..|prefix|] == prefix
  }

  predicate EndsWith(s: string, suffix: string) {
    |s| >= |suffix| && s[|s| - |suffix|..] == suffix
  }

  lemma EndsWithAppend(a: string, b: string, suffix: string)
    requires EndsWith(b, suffix)
    ensures EndsWith(a + b, suffix)
  {
    assert (a + b)[|a + b| - |suffix|..] == b[|b| - |suffix|..];
  }

  lemma StartsWithAppend(a: string, b: string, prefix: string)
    requires StartsWith(a, prefix)
    ensures StartsWith(a + b, prefix)
  {
    assert (a + b)[..|prefix|] == a[..|prefix|];
  }

  lemma StartsWithSelf(s: string)
    ensures StartsWith(s, s)
  {
    assert s[..|s|] == s;
  }

  lemma EndsWithSelf(s: string)
    ensures EndsWith(s, s)
  {
    assert s[|s| - |s|..] == s;
  }

  /** A null title is written as `None`, as the f-string renders it. */
  lemma NullTitleReadsNone()
    ensures BiasEntry(CoachBias(Null, Given("low"), Absent)) == "None (low): "
  {
  }

  /** The fixed text before the trader context. */
  const PromptHead: string :=
    "You are an expert AI trading coach for the National Bank Bias Detector platform. Your role is to:\n"
    + "1. Analyze trading behavior and identify psychological biases\n"
    + "2. Provide personalized, actionable advice\n"
    + "3. Help traders improve discipline and emotional control\n"
    + "4. Suggest portfolio optimization strategies\n"
    + "5. Perform sentiment analysis on trader notes\n"
    + "6. Predict potential bias-triggering situations\n\n"
    + "Current trader context:\n"

  /** The fixed text after the trader context. */
  const PromptTail: string :=
    "Be empathetic but direct. Use specific data from their trades when possible. "
    + "Keep responses concise (2-4 paragraphs max). Reference behavioral finance concepts."

  function SystemPrompt(tradeSummary: string, biasSummary: string): string {
    PromptHead + tradeSummary + "\n" + biasSummary + "\n\n" + PromptTail
  }

  /** A history turn as sent on by `get("content", "")`: a missing content
      reads as empty, a null one stays null. */
  function ToMessage(turn: ChatTurn): (r: Message)
    ensures r.role == turn.role
    ensures r.content.None? <==> turn.content.Null?
    ensures turn.content.Absent? ==> r.content == Some("")
    ensures turn.content.Given? ==> r.content == Some(turn.content.text)
  {
    Message(turn.role,
            match turn.content
            case Absent => Some("")
            case Null => None
            case Given(t) => Some(t))
  }

  /** The system prompt with the trader context filled in. */
  function ContextPrompt(request: CoachRequest, fmt: FixedPoint): string {
    SystemPrompt(TradeSummary(request.trades, fmt), BiasSummary(request.biases))
  }

  /** The system prompt, then the history in order, then the user's message. */
  function Messages(systemPrompt: string, history: seq<ChatTurn>, message: string): (r: seq<Message>)
    ensures |r| == |history| + 2
    ensures r[0] == Message(Some("system"), Some(systemPrompt))
    ensures r[|r| - 1] == Message(Some("user"), Some(message))
    ensures forall i :: 0 <= i < |history| ==> r[i + 1] == ToMessage(history[i])
  {
    var earlier := MapSeq(ToMessage, history);
    var r := [Message(Some("system"), Some(systemPrompt))] + earlier + [Message(Some("user"), Some(message))];
    assert forall i :: 0 <= i < |earlier| ==> r[i + 1] == earlier[i];
    r
  }

  /** The endpoint up to the gateway call: without an API key the fixed
      reply, otherwise the messages to send. */
  function Coach(request: CoachRequest, apiKey: string, fmt: FixedPoint): (r: Outcome)
    ensures r.NotConfigured? <==> apiKey == ""
    ensures r.NotConfigured? ==> r.reply == NotConfiguredReply
    ensures r.Send? ==> r.messages == Messages(ContextPrompt(request, fmt), request.history, request.message)
  {
    if apiKey == "" then NotConfigured(NotConfiguredReply)
    else Send(Messages(ContextPrompt(request, fmt), request.history, request.message))
  }

  /** The total P/L counts a missing P/L as zero: adding such a trade
      changes nothing. */
  lemma {:induction false} MissingPnlAddsNothing(trades: seq<CoachTrade>, asset: Option<string>)
    ensures TotalPnl(trades + [CoachTrade(None, asset)]) == TotalPnl(trades)
  {
    var longer := trades + [CoachTrade(None, asset)];
    var pnls := MapSeq(PnlOf, trades);
    SumAppend(pnls, 0.0);
    assert forall i :: 0 <= i < |trades| ==> MapSeq(PnlOf, longer)[i] == pnls[i];
    assert longer[|trades|] == CoachTrade(None, asset);
    assert MapSeq(PnlOf, longer)[|trades|] == PnlOf(CoachTrade(None, asset)) == 0.0;
    assert MapSeq(PnlOf, longer) == pnls + [0.0];
  }

  lemma {:induction false} SumAppend(s: seq<real>, x: real)
    ensures Sum(s + [x]) == Sum(s) + x
  {
    if s != [] {
      assert (s + [x])[1..] == s[1..] + [x];
      SumAppend(s[1..], x);
    }
  }
}

=== FILE: loss_aversion.dfy ===
/** Loss aversion: losing trades held longer than winners, or losses
    larger than wins. The holding time of a trade is approximated by the
    time since the previous trade. */
module LossAversion {
  import opened Util
  import opened Sorting
  import opened Trades
  import opened Biases

  const Title := "Loss Aversion Bias"
  const MinRows := 3
  /** A ratio above this contributes to the score. */
  const RatioThreshold := 1.2
  const TermCap := 40.0
  const MinScore := 15.0

  predicate IsWin(t: Trade) {
    t.pnl.Some? && t.pnl.value > 0.0
  }

  predicate IsLoss(t: Trade) {
    t.pnl.Some? && t.pnl.value < 0.0
  }

  function PnlOrZero(t: Trade): real {
    if t.pnl.Some? then t.pnl.value else 0.0
  }

  function LossSize(t: Trade): real {
    Abs(PnlOrZero(t))
  }

  /** Seconds since the previous trade; the first row has none. */
  function Gap(rows: seq<Trade>, i: nat): int
    requires 1 <= i < |rows|
  {
    rows[i].timestamp - rows[i - 1].timestamp
  }

  /** The gaps of rows 1 to k-1 that satisfy `p`, in row order. */
  function GapsWhere(rows: seq<Trade>, p: Trade -> bool, k: nat): (r: seq<int>)
    requires k <= |rows|
    ensures |r| < k || k == 0
  {
    if k <= 1 then []
    else GapsWhere(rows, p, k - 1) + (if p(rows[k - 1]) then [Gap(rows, k - 1)] else [])
  }

  function WinGaps(rows: seq<Trade>): seq<int> {
    GapsWhere(rows, IsWin, |rows|)
  }

  function LossGaps(rows: seq<Trade>): seq<int> {
    GapsWhere(rows, IsLoss, |rows|)
  }

  function AsReals(s: seq<int>): seq<real> {
    MapSeq((x: int) => x as real, s)
  }

  function Identity(x: int): int {
    x
  }

  /** The median: the middle value, or the mean of the two middle values. */
  function Median(s: seq<int>): real
    requires |s| > 0
  {
    MiddleOf(SortByKey(s, Identity))
  }

  function MiddleOf(t: seq<int>): real
    requires |t| > 0
  {
    var n := |t|;
    if n % 2 == 1 then t[n / 2] as real else (t[n / 2 - 1] + t[n / 2]) as real / 2.0
  }

  function AtLeastPred(m: real): int -> bool {
    (x: int) => x as real >= m
  }

  function AtMostPred(m: real): int -> bool {
    (x: int) => x as real <= m
  }

  /** In a sorted sequence the upper half lies at or above the middle. */
  lemma UpperHalfAtLeast(t: seq<int>)
    requires |t| > 0 && SortedByKey(t, Identity)
    ensures forall j :: |t| / 2 <= j < |t| ==> AtLeastPred(MiddleOf(t))(t[j])
  {
    var n := |t|;
    forall j | n / 2 <= j < n
      ensures t[j] as real >= MiddleOf(t)
    {
      assert Identity(t[n / 2]) <= Identity(t[j]);
      if n % 2 == 0 {
        assert Identity(t[n / 2 - 1]) <= Identity(t[n / 2]);
      }
    }
  }

  /** In a sorted sequence the lower half lies at or below the middle. */
  lemma LowerHalfAtMost(t: seq<int>)
    requires |t| > 0 && SortedByKey(t, Identity)
    ensures forall j :: 0 <= j < |t| - |t| / 2 ==> AtMostPred(MiddleOf(t))(t[j])
  {
    var n := |t|;
    forall j | 0 <= j < n - n / 2
      ensures t[j] as real <= MiddleOf(t)
    {
      assert Identity(t[j]) <= Identity(t[(n - 1) / 2]);
      if n % 2 == 0 {
        assert Identity(t[n / 2 - 1]) <= Identity(t[n / 2]);
      }
    }
  }

  /** At least half of the values are at or above the median. */
  lemma MedianAtLeastHalf(s: seq<int>)
    requires |s| > 0
    ensures |Filter(s, AtLeastPred(Median(s)))| >= |s| - |s| / 2
  {
    var t := SortByKey(s, Identity);
    UpperHalfAtLeast(t);
    FilterKeepsRun(t, AtLeastPred(Median(s)), |t| / 2, |t|);
    FilterSameLength(s, t, AtLeastPred(Median(s)));
  }

  /** At least half of the values are at or below the median. */
  lemma MedianAtMostHalf(s: seq<int>)
    requires |s| > 0
    ensures |Filter(s, AtMostPred(Median(s)))| >= |s| - |s| / 2
  {
    var t := SortByKey(s, Identity);
    LowerHalfAtMost(t);
    FilterKeepsRun(t, AtMostPred(Median(s)), 0, |t| - |t| / 2);
    FilterSameLength(s, t, AtMostPred(Median(s)));
  }

  /** A losing row held at least as long as the median losing gap. */
  function FlagPred(rows: seq<Trade>, median: real): nat -> bool {
    (i: nat) => 1 <= i < |rows| && IsLoss(rows[i]) && Gap(rows, i) as real >= median
  }

  /** Every row whose condition is checked has a gap. */
  predicate Eligible(table: Table<Trade>) {
    && table.hasPnl
    && |table.rows| >= MinRows
    && |Filter(table.rows, IsWin)| > 0
    && |Filter(table.rows, IsLoss)| > 0
    && |WinGaps(table.rows)| > 0
    && |LossGaps(table.rows)| > 0
  }

  /** The averages the score is computed from. */
  datatype Figures = Figures(
    avgDurationWin: real,
    avgDurationLoss: real,
    avgWin: real,
    avgLoss: real,
    lossWinRatio: real,
    durationRatio: real)

  /** `ratio` is `a / b`. */
  predicate IsRatio(ratio: real, a: real, b: real) {
    ratio * b == a
  }

  function FiguresOf(rows: seq<Trade>): (f: Figures)
    requires |Filter(rows, IsWin)| > 0 && |Filter(rows, IsLoss)| > 0
    requires |WinGaps(rows)| > 0 && |LossGaps(rows)| > 0
    ensures f.avgWin != 0.0 ==> IsRatio(f.lossWinRatio, f.avgLoss, f.avgWin)
    ensures f.avgDurationWin > 0.0 ==> IsRatio(f.durationRatio, f.avgDurationLoss, f.avgDurationWin)
    ensures f.avgDurationWin <= 0.0 ==> f.durationRatio == 0.0
  {
    var avgDurationWin := Mean(AsReals(WinGaps(rows)));
    var avgDurationLoss := Mean(AsReals(LossGaps(rows)));
    var avgWin := Mean(MapSeq(PnlOrZero, Filter(rows, IsWin)));
    var avgLoss := Mean(MapSeq(LossSize, Filter(rows, IsLoss)));
    var lossWinRatio := if avgWin != 0.0 then avgLoss / avgWin else 0.0;
    var durationRatio := if avgDurationWin > 0.0 then avgDurationLoss / avgDurationWin else 0.0;
    Figures(avgDurationWin, avgDurationLoss, avgWin, avgLoss, lossWinRatio, durationRatio)
  }

  /** One ratio's share of the score: `perUnit` points for each whole
      unit above 1, capped at 40, and nothing unless the ratio exceeds 1.2. */
  function Term(ratio: real, perUnit: real): (r: real)
    requires perUnit > 0.0
    ensures 0.0 <= r <= TermCap
    ensures ratio <= RatioThreshold ==> r == 0.0
    ensures ratio > RatioThreshold && (ratio - 1.0) * perUnit <= TermCap ==> r == (ratio - 1.0) * perUnit
    ensures ratio > RatioThreshold && (ratio - 1.0) * perUnit >= TermCap ==> r == TermCap
  {
    if ratio > RatioThreshold then MinReal(TermCap, (ratio - 1.0) * perUnit) else 0.0
  }

  /** Up to 40 points for each ratio above 1.2: 50 per unit of the
      duration ratio, 30 per unit of the size ratio. The overall cap of 100
      never binds. */
  function Score(durationRatio: real, lossWinRatio: real): (r: real)
    ensures 0.0 <= r <= 2.0 * TermCap
    ensures r == Term(durationRatio, 50.0) + Term(lossWinRatio, 30.0)
    ensures durationRatio <= RatioThreshold && lossWinRatio <= RatioThreshold ==> r == 0.0
    ensures durationRatio >= 1.3 || lossWinRatio >= 1.5 ==> r >= MinScore
  {
    var byDuration := if durationRatio > RatioThreshold then MinReal(TermCap, (durationRatio - 1.0) * 50.0) else 0.0;
    var bySize := if lossWinRatio > RatioThreshold then MinReal(TermCap, (lossWinRatio - 1.0) * 30.0) else 0.0;
    MinReal(100.0, byDuration + bySize)
  }

  /** The fixed words of the description, around its five numbers. */
  const Words: seq<string> := [
    "Losing trades are held longer (avg ", " min) than winners (avg ",
    " min). Average loss $", " vs average win $", " (ratio ", ")."]

  function Describe(f: Figures, fmt: FixedPoint): string {
    Words[0] + fmt(f.avgDurationLoss / 60.0, 1) + Words[1] + fmt(f.avgDurationWin / 60.0, 1)
    + Words[2] + fmt(f.avgLoss, 2) + Words[3] + fmt(f.avgWin, 2) + Words[4] + fmt(f.lossWinRatio, 2) + Words[5]
  }

  /** The result built from the figures: the rounded score, the band of
      the unrounded score, the description and the figures rounded to two
      places. */
  function BiasOf(f: Figures, fmt: FixedPoint): (b: Bias)
    ensures b.kind == LossAversion && b.title == Title
    ensures b.score == RoundHalfEven(Score(f.durationRatio, f.lossWinRatio))
    ensures Score(f.durationRatio, f.lossWinRatio) >= MinScore ==> 15 <= b.score <= 80
    ensures b.severity == Grade(Score(f.durationRatio, f.lossWinRatio), 70.0, 45.0, 25.0)
    ensures b.description == Describe(f, fmt)
    ensures b.details == LossAversionDetails(Round2(f.avgDurationWin / 60.0), Round2(f.avgDurationLoss / 60.0),
                                             Round2(f.avgWin), Round2(f.avgLoss), Round2(f.lossWinRatio))
  {
    var score := Score(f.durationRatio, f.lossWinRatio);
    var details := LossAversionDetails(Round2(f.avgDurationWin / 60.0), Round2(f.avgDurationLoss / 60.0),
                                       Round2(f.avgWin), Round2(f.avgLoss), Round2(f.lossWinRatio));
    Bias(LossAversion, Grade(score, 70.0, 45.0, 25.0), Title, Describe(f, fmt), details, RoundHalfEven(score))
  }

  /** `detect_loss_aversion`; `fmt` renders the description's numbers. */
  function Detect(table: Table<Trade>, fmt: FixedPoint): (r: Detection)
    ensures !Eligible(table) ==> r == NoDetection
    ensures Eligible(table) ==>
      (r.bias.Some? <==> Score(FiguresOf(table.rows).durationRatio, FiguresOf(table.rows).lossWinRatio) >= MinScore)
    ensures r.bias.None? ==> r.flagged == []
    ensures r.bias.Some? ==>
      && Eligible(table)
      && r.bias.value.kind == LossAversion
      && r.bias.value.title == Title
      && 15 <= r.bias.value.score <= 80
    ensures r.bias.Some? ==> Eligible(table) && r.bias.value == BiasOf(FiguresOf(table.rows), fmt)
    ensures r.bias.Some? ==>
      var median := Median(LossGaps(table.rows));
      forall i: nat :: i in r.flagged <==>
        1 <= i < |table.rows| && IsLoss(table.rows[i]) && Gap(table.rows, i) as real >= median
    ensures forall j, k :: 0 <= j < k < |r.flagged| ==> r.flagged[j] < r.flagged[k]
    ensures forall i :: i in r.flagged ==> i < |table.rows|
  {
    var rows := table.rows;
    if !Eligible(table) then NoDetection
    else
      var f := FiguresOf(rows);
      var score := Score(f.durationRatio, f.lossWinRatio);
      if score < MinScore then NoDetection
      else
        var median := Median(LossGaps(rows));
        var flags := IndicesWhere(|rows|, FlagPred(rows, median));
        FlagsExact(rows, median);
        Detection(Some(BiasOf(f, fmt)), flags)
  }

  lemma FlagsExact(rows: seq<Trade>, median: real)
    ensures forall i: nat :: i in IndicesWhere(|rows|, FlagPred(rows, median)) <==>
      1 <= i < |rows| && IsLoss(rows[i]) && Gap(rows, i) as real >= median
  {
    var flags := IndicesWhere(|rows|, FlagPred(rows, median));
    forall i: nat
      ensures i in flags <==> 1 <= i < |rows| && IsLoss(rows[i]) && Gap(rows, i) as real >= median
    {
      assert i in flags <==> i < |rows| && FlagPred(rows, median)(i);
    }
  }

  /** The flags count the losing gaps at or above the median. */
  lemma {:induction false} FlagsCountGaps(rows: seq<Trade>, median: real, k: nat)
    requires k <= |rows|
    ensures |IndicesWhere(k, FlagPred(rows, median))| == |Filter(GapsWhere(rows, IsLoss, k), AtLeastPred(median))|
  {
    if k > 1 {
      FlagsCountGaps(rows, median, k - 1);
      var tail := if IsLoss(rows[k - 1]) then [Gap(rows, k - 1)] else [];
      FilterConcat(GapsWhere(rows, IsLoss, k - 1), tail, AtLeastPred(median));
    } else if k == 1 {
      assert !FlagPred(rows, median)(0);
    }
  }

  /** At least half of the losing trades that have a gap are flagged. */
  lemma HalfOfLossesFlagged(table: Table<Trade>, fmt: FixedPoint)
    requires Detect(table, fmt).bias.Some?
    ensures |Detect(table, fmt).flagged| >= |LossGaps(table.rows)| - |LossGaps(table.rows)| / 2
  {
    var rows := table.rows;
    var median := Median(LossGaps(rows));
    FlagsCountGaps(rows, median, |rows|);
    MedianAtLeastHalf(LossGaps(rows));
  }

  /** Average losses at least one and a half times the average win always
      produce a result. */
  lemma LargeLossesDetected(table: Table<Trade>, fmt: FixedPoint)
    requires Eligible(table)
    requires FiguresOf(table.rows).avgLoss >= 1.5 * FiguresOf(table.rows).avgWin > 0.0
    ensures Detect(table, fmt).bias.Some?
  {
    var f := FiguresOf(table.rows);
    ScoreFromRatio(f.avgLoss, f.avgWin, f.lossWinRatio, f.durationRatio, 1.5);
  }

  /** Losing gaps at least 1.3 times the winning gaps always produce a
      result. */
  lemma SlowLosersDetected(table: Table<Trade>, fmt: FixedPoint)
    requires Eligible(table)
    requires FiguresOf(table.rows).avgDurationLoss >= 1.3 * FiguresOf(table.rows).avgDurationWin > 0.0
    ensures Detect(table, fmt).bias.Some?
  {
    var f := FiguresOf(table.rows);
    ScoreFromRatio(f.avgDurationLoss, f.avgDurationWin, f.durationRatio, f.lossWinRatio, 1.3);
  }

  /** A ratio `a / b` of at least 1.5, or of at least 1.3, scores enough on
      its own, whatever the other ratio. */
  lemma ScoreFromRatio(a: real, b: real, ratio: real, other: real, c: real)
    requires c == 1.5 || c == 1.3
    requires b > 0.0 && IsRatio(ratio, a, b) && a >= c * b
    ensures c == 1.5 ==> Score(other, ratio) >= MinScore
    ensures c == 1.3 ==> Score(ratio, other) >= MinScore
  {
    assert ratio * b >= c * b;
  }

  /** Neither ratio above 1.2: no result. */
  lemma BalancedNotDetected(table: Table<Trade>, fmt: FixedPoint)
    requires Eligible(table)
    requires FiguresOf(table.rows).durationRatio <= RatioThreshold
    requires FiguresOf(table.rows).lossWinRatio <= RatioThreshold
    ensures Detect(table, fmt) == NoDetection
  {
  }
}

=== FILE: overtrading.dfy ===
/** Overtrading: more than five trades in one clock hour, or tickets worth
    more than a tenth of the account balance. */
module Overtrading {
  import opened Util
  import opened Trades
  import opened Biases

  const HourSeconds := 3600
  /** Trades per hour above which an hour is busy. */
  const FrequencyLimit := 5
  /** The share of the balance above which a ticket is large. */
  const BalanceShare := 0.1
  /** Scores below this produce no result. */
  const MinScore := 15
  const Title := "Overtrading Detected"

  /** The clock hour a trade falls in (the timestamp truncated to the hour). */
  function HourOf(t: Trade): int {
    t.timestamp / HourSeconds
  }

  /** How many rows fall in hour `h`. */
  function CountInHour(rows: seq<Trade>, h: int): nat {
    |IndicesWhere(|rows|, (i: nat) => i < |rows| && HourOf(rows[i]) == h)|
  }

  /** The largest hourly count among the first `k` rows' hours. */
  function MaxPerHourUpTo(rows: seq<Trade>, k: nat): (m: nat)
    requires k <= |rows|
    ensures forall i :: 0 <= i < k ==> CountInHour(rows, HourOf(rows[i])) <= m
    ensures k > 0 ==> exists i :: 0 <= i < k && CountInHour(rows, HourOf(rows[i])) == m
    ensures k == 0 ==> m == 0
  {
    if k == 0 then 0
    else
      var m := MaxPerHourUpTo(rows, k - 1);
      var c := CountInHour(rows, HourOf(rows[k - 1]));
      if c > m then c else m
  }

  /** The most trades in any one hour. */
  function MaxPerHour(rows: seq<Trade>): nat {
    MaxPerHourUpTo(rows, |rows|)
  }

  /** A ticket whose notional exceeds a tenth of a known, non-zero balance. */
  predicate LargeTicket(t: Trade, hasBalance: bool) {
    && hasBalance
    && t.balance.Some?
    && t.balance.value != 0.0
    && t.quantity * t.price / t.balance.value > BalanceShare
  }

  /** Row `i` lies in an hour with more than five trades. */
  predicate InBusyHour(rows: seq<Trade>, i: nat)
    requires i < |rows|
  {
    CountInHour(rows, HourOf(rows[i])) > FrequencyLimit
  }

  /** The rows flagged for their ticket size alone. */
  function TicketFlags(table: Table<Trade>): seq<nat> {
    IndicesWhere(|table.rows|, (i: nat) => i < |table.rows| && LargeTicket(table.rows[i], table.hasBalance))
  }

  /** The flagged rows as the engine assembles them: the large tickets,
      joined by the rows of busy hours when the busiest hour is busy. */
  function Flags(table: Table<Trade>, maxPerHour: nat): seq<nat> {
    var rows := table.rows;
    if maxPerHour > FrequencyLimit then
      IndicesWhere(|rows|, (i: nat) => i < |rows| && (LargeTicket(rows[i], table.hasBalance) || InBusyHour(rows, i)))
    else TicketFlags(table)
  }

  /** Up to 50 points for the busiest hour and up to 50 for the flagged rows. */
  function Score(maxPerHour: nat, flagged: nat): (r: int)
    ensures 0 <= r <= 100
    ensures r == (if maxPerHour > FrequencyLimit then Min(50, 8 * (maxPerHour - FrequencyLimit)) else 0)
                 + Min(50, 5 * flagged)
    ensures maxPerHour <= FrequencyLimit ==> r == Min(50, 5 * flagged)
    ensures maxPerHour > FrequencyLimit && flagged > 0 ==> r >= 13
  {
    var byFrequency := if maxPerHour > FrequencyLimit then Min(50, (maxPerHour - FrequencyLimit) * 8) else 0;
    var byTickets := if flagged > 0 then Min(50, flagged * 5) else 0;
    Min(100, byFrequency + byTickets)
  }

  function Describe(maxPerHour: nat, flagged: nat): string {
    "Trade frequency reached " + NatToString(maxPerHour) + " trades per hour (threshold 5). "
    + (if flagged > 0 then NatToString(flagged) + " trade(s) exceeded 10% of balance per ticket." else "")
  }

  /** `detect_overtrading`. */
  function Detect(table: Table<Trade>): (r: Detection)
    ensures |table.rows| < 2 ==> r == NoDetection
    ensures r.bias.None? ==> r.flagged == []
    ensures r.bias.Some? ==>
      && r.bias.value.kind == Overtrading
      && r.bias.value.title == Title
      && MinScore <= r.bias.value.score <= 100
      && r.bias.value.score == Score(MaxPerHour(table.rows), |r.flagged|)
      && r.bias.value.severity == Grade(r.bias.value.score as real, 75.0, 50.0, 25.0)
      && r.bias.value.details == OvertradingDetails(MaxPerHour(table.rows), |r.flagged|)
    ensures r.bias.Some? ==> forall i: nat :: i in r.flagged <==>
      i < |table.rows| && (LargeTicket(table.rows[i], table.hasBalance) || InBusyHour(table.rows, i))
    ensures forall j, k :: 0 <= j < k < |r.flagged| ==> r.flagged[j] < r.flagged[k]
    ensures forall i :: i in r.flagged ==> i < |table.rows|
  {
    var rows := table.rows;
    if |rows| < 2 then NoDetection
    else
      var m := MaxPerHour(rows);
      var flags := Flags(table, m);
      var score := Score(m, |flags|);
      if score < MinScore then NoDetection
      else
        FlagsAreUnion(table);
        var bias := Bias(Overtrading, Grade(score as real, 75.0, 50.0, 25.0), Title,
                         Describe(m, |flags|), OvertradingDetails(m, |flags|), score);
        Detection(Some(bias), flags)
  }

  /** Whatever the busiest hour, the flagged rows are exactly the large
      tickets and the rows of busy hours. */
  lemma FlagsAreUnion(table: Table<Trade>)
    ensures forall i: nat :: i in Flags(table, MaxPerHour(table.rows)) <==>
      i < |table.rows| && (LargeTicket(table.rows[i], table.hasBalance) || InBusyHour(table.rows, i))
  {
    var rows := table.rows;
    var m := MaxPerHour(rows);
    if m <= FrequencyLimit {
      forall i: nat | i < |rows|
        ensures !InBusyHour(rows, i)
      {
        assert CountInHour(rows, HourOf(rows[i])) <= m;
      }
    }
  }

  /** The busiest hour's rows are all flagged, so there are at least as
      many flags as trades in that hour. */
  lemma BusiestHourFlagged(table: Table<Trade>)
    requires MaxPerHour(table.rows) > FrequencyLimit
    ensures |Flags(table, MaxPerHour(table.rows))| >= MaxPerHour(table.rows)
  {
    var rows := table.rows;
    var m := MaxPerHour(rows);
    var i :| 0 <= i < |rows| && CountInHour(rows, HourOf(rows[i])) == m;
    var h := HourOf(rows[i]);
    IndicesWhereMono(|rows|, (j: nat) => j < |rows| && HourOf(rows[j]) == h,
                     (j: nat) => j < |rows| && (LargeTicket(rows[j], table.hasBalance) || InBusyHour(rows, j)));
  }

  /** A result appears exactly when some hour has more than five trades or
      at least three tickets are large. */
  lemma {:induction false} DetectedIff(table: Table<Trade>)
    requires |table.rows| >= 2
    ensures Detect(table).bias.Some? <==>
      MaxPerHour(table.rows) > FrequencyLimit || |TicketFlags(table)| >= 3
  {
    var m := MaxPerHour(table.rows);
    if m > FrequencyLimit {
      BusiestHourFlagged(table);
    }
  }

  /** A busy hour always yields a result scoring at least 38. */
  lemma {:induction false} BusyHourScore(table: Table<Trade>)
    requires |table.rows| >= 2
    requires exists i :: 0 <= i < |table.rows| && InBusyHour(table.rows, i)
    ensures Detect(table).bias.Some? && Detect(table).bias.value.score >= 38
  {
    var rows := table.rows;
    var i :| 0 <= i < |rows| && InBusyHour(rows, i);
    assert CountInHour(rows, HourOf(rows[i])) <= MaxPerHour(rows);
    BusiestHourFlagged(table);
  }
}

=== FILE: parse.dfy ===
/** From an uploaded CSV, already split into a header and rows of text cells,
    to the normalised frame: header synonyms, required columns, action words,
    numeric casts and the chronological sort. Tokenising the CSV and reading
    dates and numbers out of text are the data frame library's work; they
    enter as `Decoders`. */
module Parse {
  import opened Util
  import opened Sorting
  import opened Trades

  const TimestampCol := "timestamp"
  const ActionCol := "action"
  const AssetCol := "asset"
  const QuantityCol := "quantity"
  const PriceCol := "price"
  const PnlCol := "pnl"
  const BalanceCol := "balance"

  const Canonical: set<string> :=
    {TimestampCol, ActionCol, AssetCol, QuantityCol, PriceCol, PnlCol, BalanceCol}

  const Required: set<string> := {TimestampCol, ActionCol, AssetCol, QuantityCol, PriceCol}

  /** Accepted header spellings (after trimming and lower-casing). */
  const HeaderMap: map<string, string> := map[
    "timestamp" := TimestampCol, "date" := TimestampCol,
    "time" := TimestampCol, "datetime" := TimestampCol,
    "buy/sell" := ActionCol, "action" := ActionCol,
    "side" := ActionCol, "type" := ActionCol,
    "asset" := AssetCol, "symbol" := AssetCol, "ticker" := AssetCol,
    "quantity" := QuantityCol, "qty" := QuantityCol,
    "amount" := QuantityCol, "shares" := QuantityCol,
    "price" := PriceCol, "entry_price" := PriceCol,
    "p/l" := PnlCol, "pl" := PnlCol, "pnl" := PnlCol, "profit" := PnlCol,
    "balance" := BalanceCol, "account_balance" := BalanceCol]

  /** Unicode's `White_Space` characters: what a data frame's
      `str.strip_chars()` removes (Rust's `char::is_whitespace`). */
  predicate IsWhiteSpace(c: char) {
    || '\t' <= c <= '\r'
    || c == ' ' || c == '\U{0085}' || c == '\U{00A0}' || c == '\U{1680}'
    || '\U{2000}' <= c <= '\U{200A}'
    || c == '\U{2028}' || c == '\U{2029}' || c == '\U{202F}' || c == '\U{205F}' || c == '\U{3000}'
  }

  /** What Python's `str.strip()` removes: the `White_Space` characters and
      also the four information separators U+001C to U+001F. */
  predicate IsSpace(c: char) {
    IsWhiteSpace(c) || '\U{001C}' <= c <= '\U{001F}'
  }

  function StripLeft(s: string, space: char -> bool): (r: string)
    ensures |r| <= |s| && r == s[|s| - |r|..]
    ensures r == [] || !space(r[0])
    ensures forall i :: 0 <= i < |s| - |r| ==> space(s[i])
  {
    if s != [] && space(s[0]) then
      var r := StripLeft(s[1..], space);
      assert s[1..][|s| - 1 - |r|..] == s[|s| - |r|..];
      assert forall i :: 1 <= i < |s| - |r| ==> s[i] == s[1..][i - 1];
      r
    else s
  }

  function StripRight(s: string, space: char -> bool): (r: string)
    ensures |r| <= |s| && r == s[..|r|]
    ensures r == [] || !space(r[|r| - 1])
    ensures forall i :: |r| <= i < |s| ==> space(s[i])
  {
    if s != [] && space(s[|s| - 1]) then
      var r := StripRight(s[..|s| - 1], space);
      assert s[..|s| - 1][..|r|] == s[..|r|];
      assert forall i :: |r| <= i < |s| - 1 ==> s[i] == s[..|s| - 1][i];
      r
    else s
  }

  /** Drops the leading and trailing characters that `space` accepts: the
      result is a middle slice of `s`, empty exactly when every character
      is a space, and otherwise starting and ending with a non-space. */
  function StripBy(s: string, space: char -> bool): (r: string)
    ensures |r| <= |s|
    ensures r == [] <==> forall i :: 0 <= i < |s| ==> space(s[i])
    ensures r != [] ==> !space(r[0]) && !space(r[|r| - 1])
    ensures StrippedSlice(s, r, space)
  {
    var left := StripLeft(s, space);
    var r := StripRight(left, space);
    SliceOfSlice(s, left, r, space);
    r
  }

  /** A prefix of a suffix, each cut off at spaces, is a stripped slice. */
  lemma SliceOfSlice(s: string, left: string, r: string, space: char -> bool)
    requires |left| <= |s| && left == s[|s| - |left|..]
    requires forall i :: 0 <= i < |s| - |left| ==> space(s[i])
    requires |r| <= |left| && r == left[..|r|]
    requires forall i :: |r| <= i < |left| ==> space(left[i])
    requires left == [] || !space(left[0])
    requires r == [] || !space(r[|r| - 1])
    ensures StrippedAt(s, r, space, |s| - |left|)
    ensures r == [] <==> forall i :: 0 <= i < |s| ==> space(s[i])
    ensures r != [] ==> !space(r[0])
  {
    var a := |s| - |left|;
    if r != [] {
      assert r[0] == left[0];
    }
    if left != [] {
      assert s[a] == left[0];
    }
    assert r == s[a..a + |r|];
    forall i | a + |r| <= i < |s|
      ensures space(s[i])
    {
      assert s[i] == left[i - a];
    }
  }

  /** `r` sits in `s` at offset `a`, with only spaces before and after it. */
  predicate StrippedAt(s: string, r: string, space: char -> bool, a: int) {
    && 0 <= a <= |s| - |r|
    && r == s[a..a + |r|]
    && (forall i :: 0 <= i < a ==> space(s[i]))
    && (forall i :: a + |r| <= i < |s| ==> space(s[i]))
  }

  /** `r` is `s` with some leading and trailing spaces removed. */
  ghost predicate StrippedSlice(s: string, r: string, space: char -> bool) {
    exists a :: StrippedAt(s, r, space, a)
  }

  /** Python's `str.strip()`. */
  function Strip(s: string): (r: string)
    ensures r == [] <==> forall i :: 0 <= i < |s| ==> IsSpace(s[i])
    ensures r != [] ==> !IsSpace(r[0]) && !IsSpace(r[|r| - 1])
    ensures StrippedSlice(s, r, IsSpace)
  {
    StripBy(s, IsSpace)
  }

  /** A data frame's `str.strip_chars()` with no argument. */
  function Trim(s: string): (r: string)
    ensures r == [] <==> forall i :: 0 <= i < |s| ==> IsWhiteSpace(s[i])
    ensures r != [] ==> !IsWhiteSpace(r[0]) && !IsWhiteSpace(r[|r| - 1])
    ensures StrippedSlice(s, r, IsWhiteSpace)
  {
    StripBy(s, IsWhiteSpace)
  }

  /** Nothing but `White_Space` characters, the empty text included. */
  predicate Blank(s: string) {
    s == [] || (IsWhiteSpace(s[0]) && Blank(s[1..]))
  }

  /** `strip_chars()` leaves nothing exactly when the text is blank. */
  lemma {:induction false} TrimEmptyIffBlank(s: string)
    ensures Trim(s) == [] <==> Blank(s)
  {
    BlankIffAllWhiteSpace(s);
  }

  lemma {:induction false} BlankIffAllWhiteSpace(s: string)
    ensures Blank(s) <==> forall i :: 0 <= i < |s| ==> IsWhiteSpace(s[i])
  {
    if s != [] {
      BlankIffAllWhiteSpace(s[1..]);
      assert forall i :: 1 <= i < |s| ==> s[i] == s[1..][i - 1];
    }
  }

  /** Only the ends are stripped: a space between words stays. */
  lemma InnerSpaceKept()
    ensures Strip(" a b ") == "a b"
  {
    var s := " a b ";
    assert IsSpace(s[0]) && !IsSpace(s[1]);
    assert StripLeft(s[1..], IsSpace) == s[1..];
    assert StripLeft(s, IsSpace) == "a b ";
    var left := "a b ";
    assert IsSpace(left[3]) && !IsSpace(left[2]);
    assert StripRight(left[..3], IsSpace) == "a b";
  }

  /** The two strips differ: an information separator survives `Trim` but
      not `Strip`. */
  lemma SeparatorSurvivesTrim()
    ensures Trim("\U{001F}") == "\U{001F}" && Strip("\U{001F}") == []
  {
    var s := "\U{001F}";
    assert !IsWhiteSpace(s[0]);
    assert StripLeft(s, IsWhiteSpace) == s;
    assert StripRight(s, IsWhiteSpace) == s;
    assert IsSpace(s[0]);
  }

  function LowerChar(c: char): char {
    if 'A' <= c <= 'Z' then (c as int + 32) as char else c
  }

  /** `str.lower()` on ASCII letters. */
  function Lower(s: string): (r: string)
    ensures |r| == |s|
    ensures forall i :: 0 <= i < |s| ==> r[i] == LowerChar(s[i])
  {
    if s == [] then [] else [LowerChar(s[0])] + Lower(s[1..])
  }

  function HeaderKey(h: string): string {
    Lower(Strip(h))
  }

  /** The column name a CSV header gets. */
  function RenameHeader(h: string): string {
    var k := HeaderKey(h);
    if k in HeaderMap then HeaderMap[k] else h
  }

  /** A header is renamed exactly when its trimmed, lower-cased form is a
      known spelling, and then to a canonical column; any other header is
      left as it was. */
  lemma RenameHeaderSpec(h: string)
    ensures RenameHeader(h) in Canonical <==> HeaderKey(h) in HeaderMap
    ensures HeaderKey(h) !in HeaderMap ==> RenameHeader(h) == h
    ensures HeaderKey(h) in HeaderMap ==> RenameHeader(h) == HeaderMap[HeaderKey(h)]
  {
    if HeaderKey(h) !in HeaderMap && h in Canonical {
      CanonicalIsOwnKey(h);
    }
  }

  /** An ideographic space before a known spelling is trimmed away, so
      the header still names the P/L column. */
  lemma PaddedHeaderRenamed()
    ensures RenameHeader("\U{3000}pnl") == PnlCol
  {
    var h := "\U{3000}pnl";
    assert IsSpace(h[0]) && h[1..] == PnlCol;
    assert StripLeft(h, IsSpace) == StripLeft(PnlCol, IsSpace);
    assert HeaderKey(h) == HeaderKey(PnlCol);
    CanonicalIsOwnKey(PnlCol);
  }

  lemma StripUnchanged(s: string)
    requires s == [] || (!IsSpace(s[0]) && !IsSpace(s[|s| - 1]))
    ensures Strip(s) == s
  {
  }

  lemma LowerUnchanged(s: string)
    requires forall i :: 0 <= i < |s| ==> !('A' <= s[i] <= 'Z')
    ensures Lower(s) == s
  {
  }

  /** Every canonical column name is a known spelling of itself. */
  lemma CanonicalIsOwnKey(c: string)
    requires c in Canonical
    ensures HeaderKey(c) == c && c in HeaderMap && HeaderMap[c] == c
  {
    CanonicalIsLowerWord(c);
    PlainWord(c);
    CanonicalMapsToItself(c);
  }

  lemma CanonicalMapsToItself(c: string)
    requires c in Canonical
    ensures c in HeaderMap && HeaderMap[c] == c
  {
  }

  lemma CanonicalIsLowerWord(c: string)
    requires c in Canonical
    ensures forall i :: 0 <= i < |c| ==> 'a' <= c[i] <= 'z'
  {
  }

  /** A lower-case word is its own header key. */
  lemma PlainWord(c: string)
    requires forall i :: 0 <= i < |c| ==> 'a' <= c[i] <= 'z'
    ensures HeaderKey(c) == c
  {
    if c != [] {
      assert !IsSpace(c[0]) && !IsSpace(c[|c| - 1]);
    }
    StripUnchanged(c);
    assert Strip(c) == c;
    LowerUnchanged(c);
  }

  /** Renaming twice is renaming once. */
  lemma RenameHeaderIdempotent(h: string)
    ensures RenameHeader(RenameHeader(h)) == RenameHeader(h)
  {
    if HeaderKey(h) in HeaderMap {
      CanonicalIsOwnKey(HeaderMap[HeaderKey(h)]);
    }
  }

  /** The action word of one cell: `buy` or `b` in any case is a buy;
      anything else, null included, is a sell. */
  function NormalizeAction(cell: Option<string>): (r: string)
    ensures r == "buy" || r == "sell"
  {
    match cell
    case None => "sell"
    case Some(t) => if Lower(t) in {"buy", "b"} then "buy" else "sell"
  }

  lemma LowerIdempotent(s: string)
    ensures Lower(Lower(s)) == Lower(s)
  {
  }

  /** The action word does not depend on letter case. */
  lemma NormalizeActionIgnoresCase(t: string)
    ensures NormalizeAction(Some(t)) == NormalizeAction(Some(Lower(t)))
    ensures NormalizeAction(Some(t)) == "buy" <==> Lower(t) == "buy" || Lower(t) == "b"
  {
    LowerIdempotent(t);
  }

  /** Library readers for the three kinds of text cell: a date (epoch
      seconds, or None when unreadable), a number for the quantity and price
      columns, and a number for the P/L and balance columns. */
  datatype Decoders = Decoders(
    time: string -> Option<int>,
    number: string -> Cell,
    money: string -> Option<real>)

  datatype ParseError =
    | DuplicateColumns
    | MissingColumns(missing: set<string>)
    | BadTimestamp(text: string)

  predicate Distinct(names: seq<string>) {
    forall i, j :: 0 <= i < j < |names| ==> names[i] != names[j]
  }

  function Columns(names: seq<string>): set<string> {
    set n | n in names
  }

  function IndexOf(names: seq<string>, c: string): (i: nat)
    requires c in names
    ensures i < |names| && names[i] == c
  {
    if names[0] == c then 0 else 1 + IndexOf(names[1..], c)
  }

  /** The text in column `c` of a row; a short row reads as null. */
  function CellText(names: seq<string>, row: seq<Option<string>>, c: string): Option<string>
    requires c in names
  {
    var i := IndexOf(names, c);
    if i < |row| then row[i] else None
  }

  function NumberCell(text: Option<string>, dec: Decoders): Cell {
    match text
    case None => Null
    case Some(t) => dec.number(t)
  }

  function MoneyCell(names: seq<string>, row: seq<Option<string>>, c: string, dec: Decoders): Option<real> {
    if c !in names then None
    else
      match CellText(names, row, c)
      case None => None
      case Some(t) => dec.money(t)
  }

  /** One row of the frame, or the timestamp text the date reader rejects. */
  function DecodeRow(names: seq<string>, row: seq<Option<string>>, dec: Decoders): (r: Result<Record, ParseError>)
    requires Required <= Columns(names)
    ensures r.Ok? ==> r.value.action in {"buy", "sell"}
    ensures r.Ok? && PnlCol !in names ==> r.value.pnl.None?
    ensures r.Ok? && BalanceCol !in names ==> r.value.balance.None?
    ensures r.Err? <==> CellText(names, row, TimestampCol).Some? && dec.time(CellText(names, row, TimestampCol).value).None?
    ensures r.Ok? ==> (r.value.timestamp.Some? <==> CellText(names, row, TimestampCol).Some?)
    ensures r.Ok? && r.value.timestamp.Some? ==> r.value.timestamp == dec.time(CellText(names, row, TimestampCol).value)
    ensures r.Ok? ==> r.value.action == NormalizeAction(CellText(names, row, ActionCol))
    ensures r.Ok? ==> r.value.asset == CellText(names, row, AssetCol)
    ensures r.Ok? ==> r.value.quantity == NumberCell(CellText(names, row, QuantityCol), dec)
    ensures r.Ok? ==> r.value.price == NumberCell(CellText(names, row, PriceCol), dec)
    ensures r.Ok? ==> r.value.pnl == MoneyCell(names, row, PnlCol, dec) && r.value.balance == MoneyCell(names, row, BalanceCol, dec)
  {
    assert TimestampCol in Columns(names) && ActionCol in Columns(names) && AssetCol in Columns(names);
    assert QuantityCol in Columns(names) && PriceCol in Columns(names);
    var ts: Result<Option<int>, ParseError> :=
      match CellText(names, row, TimestampCol)
      case None => Ok(None)
      case Some(t) => if dec.time(t).Some? then Ok(Some(dec.time(t).value)) else Err(BadTimestamp(t));
    if ts.Err? then Err(ts.error)
    else
      Ok(Record(
        ts.value,
        NormalizeAction(CellText(names, row, ActionCol)),
        CellText(names, row, AssetCol),
        NumberCell(CellText(names, row, QuantityCol), dec),
        NumberCell(CellText(names, row, PriceCol), dec),
        MoneyCell(names, row, PnlCol, dec),
        MoneyCell(names, row, BalanceCol, dec)))
  }

  /** Every row decoded, or the first decoding error. */
  function DecodeRows(names: seq<string>, rows: seq<seq<Option<string>>>, dec: Decoders): (r: Result<seq<Record>, ParseError>)
    requires Required <= Columns(names)
    ensures r.Ok? ==> |r.value| == |rows|
    ensures r.Ok? ==> forall i :: 0 <= i < |rows| ==> DecodeRow(names, rows[i], dec) == Ok(r.value[i])
    ensures r.Err? <==> exists i :: 0 <= i < |rows| && DecodeRow(names, rows[i], dec).Err?
  {
    MapAll(row => DecodeRow(names, row, dec), rows)
  }

  predicate HasTime(r: Record) {
    r.timestamp.Some?
  }

  predicate HasNoTime(r: Record) {
    r.timestamp.None?
  }

  function TimeKey(r: Record): int {
    match r.timestamp
    case Some(t) => t
    case None => 0
  }

  /** Null timestamps first, then ascending. */
  predicate TimeOrdered(rows: seq<Record>) {
    forall i, j :: 0 <= i < j < |rows| ==>
      rows[i].timestamp.None? ||
      (rows[j].timestamp.Some? && rows[i].timestamp.value <= rows[j].timestamp.value)
  }

  lemma TimedSorted(timed: seq<Record>)
    requires forall k :: 0 <= k < |timed| ==> HasTime(timed[k])
    ensures forall k :: 0 <= k < |SortByKey(timed, TimeKey)| ==> SortByKey(timed, TimeKey)[k].timestamp.Some?
  {
    var sorted := SortByKey(timed, TimeKey);
    forall k | 0 <= k < |sorted|
      ensures sorted[k].timestamp.Some?
    {
      assert sorted[k] in multiset(timed);
    }
  }

  /** The frame's sort on the timestamp column, nulls first. */
  function SortRecords(rows: seq<Record>): (r: seq<Record>)
    ensures TimeOrdered(r)
    ensures multiset(r) == multiset(rows)
  {
    SortRecordsCorrect(rows);
    Filter(rows, HasNoTime) + SortByKey(Filter(rows, HasTime), TimeKey)
  }

  lemma SortRecordsCorrect(rows: seq<Record>)
    ensures var r := Filter(rows, HasNoTime) + SortByKey(Filter(rows, HasTime), TimeKey);
      TimeOrdered(r) && multiset(r) == multiset(rows)
  {
    var nulls := Filter(rows, HasNoTime);
    var timed := Filter(rows, HasTime);
    var sorted := SortByKey(timed, TimeKey);
    assert forall k :: 0 <= k < |timed| ==> HasTime(timed[k]);
    TimedSorted(timed);
    NullsThenSorted(nulls, sorted);
    FilterPartition(rows, HasNoTime, HasTime);
    assert multiset(nulls + sorted) == multiset(nulls) + multiset(timed);
  }

  lemma NullsThenSorted(nulls: seq<Record>, sorted: seq<Record>)
    requires forall k :: 0 <= k < |nulls| ==> HasNoTime(nulls[k])
    requires forall k :: 0 <= k < |sorted| ==> sorted[k].timestamp.Some?
    requires SortedByKey(sorted, TimeKey)
    ensures TimeOrdered(nulls + sorted)
  {
    var r := nulls + sorted;
    forall i, j | 0 <= i < j < |r|
      ensures r[i].timestamp.None? || (r[j].timestamp.Some? && r[i].timestamp.value <= r[j].timestamp.value)
    {
      if i >= |nulls| {
        assert r[i] == sorted[i - |nulls|] && r[j] == sorted[j - |nulls|];
        assert TimeKey(r[i]) <= TimeKey(r[j]);
      }
    }
  }

  /** What parsing promises of each row, given the columns present. */
  predicate WellFormed(r: Record, hasPnl: bool, hasBalance: bool) {
    && (r.action == "buy" || r.action == "sell")
    && (!hasPnl ==> r.pnl.None?)
    && (!hasBalance ==> r.balance.None?)
  }

  lemma DecodedWellFormed(names: seq<string>, rows: seq<seq<Option<string>>>, dec: Decoders, sorted: seq<Record>)
    requires Required <= Columns(names)
    requires DecodeRows(names, rows, dec).Ok?
    requires multiset(sorted) == multiset(DecodeRows(names, rows, dec).value)
    ensures forall i :: 0 <= i < |sorted| ==> WellFormed(sorted[i], PnlCol in names, BalanceCol in names)
  {
    var decoded := DecodeRows(names, rows, dec).value;
    forall i | 0 <= i < |sorted|
      ensures WellFormed(sorted[i], PnlCol in names, BalanceCol in names)
    {
      assert sorted[i] in multiset(decoded);
      var k :| 0 <= k < |decoded| && decoded[k] == sorted[i];
      assert DecodeRow(names, rows[k], dec) == Ok(decoded[k]);
    }
  }

  /** The frame, once the column names are known to be usable. */
  function BuildFrame(names: seq<string>, rows: seq<seq<Option<string>>>, dec: Decoders): (r: Result<Table<Record>, ParseError>)
    requires Required <= Columns(names)
    ensures r.Err? <==> DecodeRows(names, rows, dec).Err?
    ensures r.Err? ==> r.error.BadTimestamp?
    ensures r.Ok? ==>
      && r.value.hasPnl == (PnlCol in names)
      && r.value.hasBalance == (BalanceCol in names)
      && |r.value.rows| == |rows|
      && TimeOrdered(r.value.rows)
      && multiset(r.value.rows) == multiset(DecodeRows(names, rows, dec).value)
      && forall i :: 0 <= i < |r.value.rows| ==> WellFormed(r.value.rows[i], r.value.hasPnl, r.value.hasBalance)
  {
    var decoded := DecodeRows(names, rows, dec);
    if decoded.Err? then
      BadTimestampOnly(names, rows, dec);
      Err(decoded.error)
    else
      var sorted := SortRecords(decoded.value);
      DecodedWellFormed(names, rows, dec, sorted);
      assert |sorted| == |multiset(sorted)| == |decoded.value|;
      Ok(Table(PnlCol in names, BalanceCol in names, sorted))
  }

  lemma {:induction false} BadTimestampOnly(names: seq<string>, rows: seq<seq<Option<string>>>, dec: Decoders)
    requires Required <= Columns(names)
    ensures DecodeRows(names, rows, dec).Err? ==> DecodeRows(names, rows, dec).error.BadTimestamp?
  {
    if rows != [] {
      BadTimestampOnly(names, rows[1..], dec);
    }
  }

  /** `parse_csv_to_dataframe`. */
  function ParseFrame(headers: seq<string>, rows: seq<seq<Option<string>>>, dec: Decoders): (r: Result<Table<Record>, ParseError>)
    requires Distinct(headers)
    ensures r == Err(DuplicateColumns) <==> !Distinct(MapSeq(RenameHeader, headers))
    ensures r.Err? && r.error.MissingColumns? ==>
      Distinct(MapSeq(RenameHeader, headers)) &&
      r.error.missing == Required - Columns(MapSeq(RenameHeader, headers)) && r.error.missing != {}
    ensures var names := MapSeq(RenameHeader, headers);
      r.Ok? <==> Distinct(names) && Required <= Columns(names) && DecodeRows(names, rows, dec).Ok?
    ensures var names := MapSeq(RenameHeader, headers);
      r.Err? && r.error.BadTimestamp? ==> Distinct(names) && Required <= Columns(names) && DecodeRows(names, rows, dec).Err?
    ensures r.Ok? ==>
      var names := MapSeq(RenameHeader, headers);
      && Distinct(names)
      && Required <= Columns(names)
      && multiset(r.value.rows) == multiset(DecodeRows(names, rows, dec).value)
      && r.value.hasPnl == (PnlCol in names)
      && r.value.hasBalance == (BalanceCol in names)
      && |r.value.rows| == |rows|
      && TimeOrdered(r.value.rows)
      && forall i :: 0 <= i < |r.value.rows| ==> WellFormed(r.value.rows[i], r.value.hasPnl, r.value.hasBalance)
  {
    var names := MapSeq(RenameHeader, headers);
    if !Distinct(names) then Err(DuplicateColumns)
    else if !(Required <= Columns(names)) then
      var c :| c in Required && c !in Columns(names);
      assert c in Required - Columns(names);
      Err(MissingColumns(Required - Columns(names)))
    else BuildFrame(names, rows, dec)
  }

  /** A missing-columns error names a required column that no header was renamed to. */
  lemma MissingColumnsHaveNoHeader(headers: seq<string>, rows: seq<seq<Option<string>>>, dec: Decoders)
    requires Distinct(headers)
    requires ParseFrame(headers, rows, dec).Err? && ParseFrame(headers, rows, dec).error.MissingColumns?
    ensures exists c :: c in Required && forall i :: 0 <= i < |headers| ==> RenameHeader(headers[i]) != c
  {
    var names := MapSeq(RenameHeader, headers);
    var c :| c in Required - Columns(names);
    assert forall i :: 0 <= i < |headers| ==> names[i] == RenameHeader(headers[i]) && names[i] in Columns(names);
  }
}

=== FILE: preprocess.dfy ===
/** Cleaning of the parsed frame before any detector sees it: invalid rows,
    the epoch window, P/L and balance outliers, duplicates, and the final
    chronological sort, with counts of what each step dropped. */
module Preprocess {
  import opened Util
  import opened Sorting
  import opened Trades
  import Parse

  /** 1990-01-01T00:00:00Z and 2030-01-01T00:00:00Z in epoch seconds. */
  const MinEpoch := 631152000
  const MaxEpoch := 1893456000

  /** Fewest rows, and fewest non-null values, for which outliers are fenced. */
  const FenceMinimum := 10

  /** A row that survives the validity filter; an asset survives when
      `strip_chars()` leaves something of it (`Parse.TrimEmptyIffBlank`). */
  predicate IsValid(r: Record) {
    && r.timestamp.Some?
    && (r.action == "buy" || r.action == "sell")
    && r.asset.Some? && !Parse.Blank(r.asset.value)
    && r.quantity.Finite? && r.quantity.x > 0.0
    && r.price.Finite? && r.price.x > 0.0
  }

  function ToTrade(r: Record): (t: Trade)
    requires IsValid(r)
    ensures ToRecord(t) == r
  {
    Trade(r.timestamp.value, if r.action == "buy" then Buy else Sell, r.asset.value,
          r.quantity.x, r.price.x, r.pnl, r.balance)
  }

  function ToTrades(rows: seq<Record>): (r: seq<Trade>)
    requires forall i :: 0 <= i < |rows| ==> IsValid(rows[i])
    ensures |r| == |rows|
    ensures forall i :: 0 <= i < |r| ==> ToRecord(r[i]) == rows[i]
  {
    if rows == [] then []
    else [ToTrade(rows[0])] + ToTrades(rows[1..])
  }

  predicate InWindow(t: Trade) {
    MinEpoch <= t.timestamp <= MaxEpoch
  }

  /** A row with a timestamp inside the epoch window. */
  predicate RecordInWindow(r: Record) {
    r.timestamp.Some? && MinEpoch <= r.timestamp.value <= MaxEpoch
  }

  /** A row that passes both the validity filter and the epoch window. */
  predicate Admissible(r: Record) {
    IsValid(r) && RecordInWindow(r)
  }

  predicate Inadmissible(r: Record) {
    !Admissible(r)
  }

  /** The admissible rows, in frame order, as trades. */
  function Admitted(table: Table<Record>): (r: seq<Trade>)
    ensures MapSeq(ToRecord, r) == Filter(table.rows, Admissible)
  {
    var records := Filter(table.rows, Admissible);
    var r := ToTrades(records);
    assert forall i :: 0 <= i < |r| ==> MapSeq(ToRecord, r)[i] == records[i];
    r
  }

  /** The admitted trades are the admissible rows of the frame. */
  lemma AdmittedIff(table: Table<Record>, x: Trade)
    ensures x in Admitted(table) <==> ToRecord(x) in table.rows && Admissible(ToRecord(x))
  {
    var admitted := Admitted(table);
    var records := Filter(table.rows, Admissible);
    if x in admitted {
      var i :| 0 <= i < |admitted| && admitted[i] == x;
      assert MapSeq(ToRecord, admitted)[i] == ToRecord(x);
      assert ToRecord(x) in multiset(records);
    }
    if ToRecord(x) in table.rows && Admissible(ToRecord(x)) {
      assert ToRecord(x) in multiset(table.rows);
      assert ToRecord(x) in multiset(records);
      var i :| 0 <= i < |records| && records[i] == ToRecord(x);
      assert MapSeq(ToRecord, admitted)[i] == ToRecord(x);
      ToRecordInjective(admitted[i], x);
    }
  }

  /** What every row of the cleaned frame satisfies. */
  predicate IsClean(t: Trade) {
    InWindow(t) && WellPriced(t)
  }

  /** A named asset and a positive quantity and price. */
  predicate WellPriced(t: Trade) {
    && !Parse.Blank(t.asset)
    && t.quantity > 0.0
    && t.price > 0.0
  }

  datatype Column = PnlColumn | BalanceColumn

  function ValueOf(t: Trade, c: Column): Option<real> {
    match c
    case PnlColumn => t.pnl
    case BalanceColumn => t.balance
  }

  /** The non-null values of a column, in row order. */
  function NonNullValues(rows: seq<Trade>, c: Column): (r: seq<real>)
    ensures |r| <= |rows|
  {
    if rows == [] then []
    else (if ValueOf(rows[0], c).Some? then [ValueOf(rows[0], c).value] else []) + NonNullValues(rows[1..], c)
  }

  /** The data frame's quantile of a list of values at a level in [0, 1]. */
  type Quantile = (seq<real>, real) -> real

  datatype Fence = Fence(low: real, high: real)

  /** Tukey's fence from the quartiles, when there are enough values and
      the interquartile range is positive. */
  function FenceFor(values: seq<real>, quantile: Quantile): (r: Option<Fence>)
    ensures r.Some? <==> |values| >= FenceMinimum && quantile(values, 0.25) < quantile(values, 0.75)
    ensures r.Some? ==>
      var q1 := quantile(values, 0.25);
      var q3 := quantile(values, 0.75);
      r.value.low == q1 - 1.5 * (q3 - q1) && r.value.high == q3 + 1.5 * (q3 - q1)
  {
    if |values| < FenceMinimum then None
    else
      var q1 := quantile(values, 0.25);
      var q3 := quantile(values, 0.75);
      var iqr := q3 - q1;
      if iqr <= 0.0 then None else Some(Fence(q1 - 1.5 * iqr, q3 + 1.5 * iqr))
  }

  /** The fence applied to column `c` of `rows`, if any: the column must
      exist and the frame must have at least ten rows. */
  function FenceOf(rows: seq<Trade>, c: Column, present: bool, quantile: Quantile): Option<Fence> {
    if !present || |rows| < FenceMinimum then None else FenceFor(NonNullValues(rows, c), quantile)
  }

  /** A null value is always inside the fence. */
  predicate InsideFence(t: Trade, c: Column, f: Fence) {
    ValueOf(t, c).None? || f.low <= ValueOf(t, c).value <= f.high
  }

  /** Inside the fence, or no fence applied. */
  predicate Passes(t: Trade, c: Column, fence: Option<Fence>) {
    fence.None? || InsideFence(t, c, fence.value)
  }

  /** One pass of the outlier filter over column `c`; `present` says
      whether the frame has that column. */
  function RemoveOutliers(rows: seq<Trade>, c: Column, present: bool, quantile: Quantile): (r: seq<Trade>)
    ensures multiset(r) <= multiset(rows)
    ensures FenceOf(rows, c, present, quantile).None? ==> r == rows
    ensures forall x :: ValueOf(x, c).None? ==> multiset(r)[x] == multiset(rows)[x]
    ensures forall x ::
              multiset(r)[x] == (if Passes(x, c, FenceOf(rows, c, present, quantile)) then multiset(rows)[x] else 0)
  {
    if !present || |rows| < FenceMinimum then rows
    else
      match FenceFor(NonNullValues(rows, c), quantile)
      case None => rows
      case Some(f) => Filter(rows, t => InsideFence(t, c, f))
  }

  /** The P/L pass, then the balance pass on what the first one kept. */
  function Fenced(rows: seq<Trade>, hasPnl: bool, hasBalance: bool, quantile: Quantile): (r: seq<Trade>)
    ensures multiset(r) <= multiset(rows)
    ensures |rows| < FenceMinimum ==> r == rows
    ensures forall x ::
              multiset(r)[x] ==
                (if && Passes(x, PnlColumn, FenceOf(rows, PnlColumn, hasPnl, quantile))
                    && Passes(x, BalanceColumn,
                              FenceOf(RemoveOutliers(rows, PnlColumn, hasPnl, quantile), BalanceColumn, hasBalance, quantile))
                 then multiset(rows)[x] else 0)
  {
    var afterPnl := RemoveOutliers(rows, PnlColumn, hasPnl, quantile);
    SubMultisetShorter(afterPnl, rows);
    RemoveOutliers(afterPnl, BalanceColumn, hasBalance, quantile)
  }

  /** The admitted rows that survive both outlier passes. */
  function Survivors(table: Table<Record>, quantile: Quantile): seq<Trade> {
    Fenced(Admitted(table), table.hasPnl, table.hasBalance, quantile)
  }

  /** The two fences, as the cleaning applies them to the admitted rows. */
  predicate PassesFences(x: Trade, table: Table<Record>, quantile: Quantile) {
    var admitted := Admitted(table);
    && Passes(x, PnlColumn, FenceOf(admitted, PnlColumn, table.hasPnl, quantile))
    && Passes(x, BalanceColumn,
              FenceOf(RemoveOutliers(admitted, PnlColumn, table.hasPnl, quantile), BalanceColumn,
                      table.hasBalance, quantile))
  }

  /** The five cells that identify a duplicate. */
  datatype DedupKey = DedupKey(timestamp: int, asset: string, action: Action, quantity: real, price: real)

  function KeyOf(t: Trade): DedupKey {
    DedupKey(t.timestamp, t.asset, t.action, t.quantity, t.price)
  }

  /** The counts the cleaning reports. `rowsAfter` is absent when the
      input frame was empty. */
  datatype Stats = Stats(
    rowsBefore: nat,
    droppedInvalid: nat,
    droppedOutliers: nat,
    droppedDuplicates: nat,
    rowsAfter: Option<nat>)

  datatype Cleaned = Cleaned(table: Table<Trade>, stats: Stats)

  /** What the full cleaning path produces from `table`: one row for each
      key among the survivors, in time order, and counts of the
      inadmissible rows, the fenced-off rows and the repeated keys. */
  predicate CleanedFrom(r: Cleaned, table: Table<Record>, quantile: Quantile) {
    var survivors := Survivors(table, quantile);
    && r.table.hasPnl == table.hasPnl && r.table.hasBalance == table.hasBalance
    && Chronological(r.table.rows)
    && multiset(r.table.rows) == multiset(UniqueBy(survivors, KeyOf))
    && r.stats.rowsBefore == |table.rows|
    && r.stats.droppedInvalid == |Filter(table.rows, Inadmissible)|
    && r.stats.droppedOutliers == |Admitted(table)| - |survivors|
    && r.stats.droppedDuplicates == |survivors| - |KeysOf(survivors, KeyOf)|
    && r.stats.rowsAfter == Some(|r.table.rows|)
  }

  /** The full cleaning path, taken when at least one row is valid. */
  function CleanValid(table: Table<Record>, quantile: Quantile): (r: Cleaned)
    ensures CleanedFrom(r, table, quantile)
    ensures forall i :: 0 <= i < |r.table.rows| ==> IsClean(r.table.rows[i])
    ensures KeysDistinct(r.table.rows, KeyOf)
    ensures multiset(MapSeq(ToRecord, r.table.rows)) <= multiset(table.rows)
    ensures r.stats.rowsBefore ==
      r.stats.droppedInvalid + r.stats.droppedOutliers + r.stats.droppedDuplicates + |r.table.rows|
  {
    var valid := Filter(table.rows, IsValid);
    var windowed := Filter(valid, RecordInWindow);
    FilterFilter(table.rows, IsValid, RecordInWindow, Admissible);
    var trades := ToTrades(windowed);
    var survivors := Fenced(trades, table.hasPnl, table.hasBalance, quantile);
    var unique := UniqueBy(survivors, KeyOf);
    var sorted := SortByKey(unique, Time);
    CleanValidFacts(table, quantile, trades, survivors, unique, sorted);
    Cleaned(
      Table(table.hasPnl, table.hasBalance, sorted),
      Stats(|table.rows|, |table.rows| - |trades|, |trades| - |survivors|,
            |survivors| - |unique|, Some(|sorted|)))
  }

  lemma CleanValidFacts(table: Table<Record>, quantile: Quantile, trades: seq<Trade>, survivors: seq<Trade>,
                        unique: seq<Trade>, sorted: seq<Trade>)
    requires trades == Admitted(table)
    requires survivors == Survivors(table, quantile)
    requires unique == UniqueBy(survivors, KeyOf)
    requires sorted == SortByKey(unique, Time)
    ensures |sorted| == |unique| == |KeysOf(survivors, KeyOf)| <= |survivors| <= |trades| <= |table.rows|
    ensures |table.rows| - |trades| == |Filter(table.rows, Inadmissible)|
    ensures forall i :: 0 <= i < |sorted| ==> IsClean(sorted[i])
    ensures KeysDistinct(sorted, KeyOf)
    ensures multiset(MapSeq(ToRecord, sorted)) <= multiset(table.rows)
  {
    CountFacts(table, trades);
    SubMultisetShorter(survivors, trades);
    KeysDistinctCard(unique, KeyOf);
    KeysDistinctPerm(sorted, unique, KeyOf);
    CleanRows(table, trades, sorted);
  }

  /** The admitted rows and the inadmissible ones make up the frame. */
  lemma CountFacts(table: Table<Record>, trades: seq<Trade>)
    requires trades == Admitted(table)
    ensures |table.rows| - |trades| == |Filter(table.rows, Inadmissible)|
  {
    FilterSplitLength(table.rows, Admissible, Inadmissible);
    assert |trades| == |MapSeq(ToRecord, trades)|;
  }

  /** Rows drawn from the admitted rows are clean rows of the frame. */
  lemma CleanRows(table: Table<Record>, trades: seq<Trade>, sorted: seq<Trade>)
    requires trades == Admitted(table)
    requires multiset(sorted) <= multiset(trades)
    ensures forall i :: 0 <= i < |sorted| ==> IsClean(sorted[i])
    ensures multiset(MapSeq(ToRecord, sorted)) <= multiset(table.rows)
  {
    var admissible := Filter(table.rows, Admissible);
    CleanStages(admissible, trades, sorted);
    MapSubMultiset(ToRecord, sorted, trades);
    assert multiset(admissible) <= multiset(table.rows);
  }

  /** Rows drawn from the admitted rows are clean. */
  lemma CleanStages(admissible: seq<Record>, trades: seq<Trade>, later: seq<Trade>)
    requires forall i :: 0 <= i < |admissible| ==> Admissible(admissible[i])
    requires MapSeq(ToRecord, trades) == admissible
    requires multiset(later) <= multiset(trades)
    ensures forall i :: 0 <= i < |later| ==> IsClean(later[i])
  {
    forall i | 0 <= i < |trades|
      ensures IsClean(trades[i])
    {
      assert ToRecord(trades[i]) == admissible[i];
    }
    SubMultisetKeeps(later, trades, IsClean);
  }

  /** `preprocess_trades` as written: when no row is valid it returns
      before counting the invalid rows. */
  function Preprocess(table: Table<Record>, quantile: Quantile): (r: Cleaned)
    ensures r.table.hasPnl == table.hasPnl && r.table.hasBalance == table.hasBalance
    ensures Chronological(r.table.rows)
    ensures forall i :: 0 <= i < |r.table.rows| ==> IsClean(r.table.rows[i])
    ensures KeysDistinct(r.table.rows, KeyOf)
    ensures multiset(MapSeq(ToRecord, r.table.rows)) <= multiset(table.rows)
    ensures r.stats.rowsBefore == |table.rows|
    ensures r.stats.rowsAfter.None? <==> |table.rows| == 0
    ensures |table.rows| == 0 ==> r.stats == Stats(0, 0, 0, 0, None) && r.table.rows == []
    ensures !NoneValid(table.rows) ==> CleanedFrom(r, table, quantile)
    ensures !NoneValid(table.rows) ==>
      r.stats.rowsBefore ==
        r.stats.droppedInvalid + r.stats.droppedOutliers + r.stats.droppedDuplicates + |r.table.rows|
    ensures |table.rows| > 0 && NoneValid(table.rows) ==>
      r.stats == Stats(|table.rows|, 0, 0, 0, Some(0)) && r.table.rows == []
  {
    var empty := Table(table.hasPnl, table.hasBalance, []);
    if |table.rows| == 0 then Cleaned(empty, Stats(0, 0, 0, 0, None))
    else
      var valid := Filter(table.rows, IsValid);
      if |valid| == 0 then
        NoneValidIffNoneKept(table.rows);
        Cleaned(empty, Stats(|table.rows|, 0, 0, 0, Some(0)))
      else
        var r := CleanValid(table, quantile);
        NoneValidIffNoneKept(table.rows);
        r
  }

  /** No row of the frame passes the validity filter. */
  predicate NoneValid(rows: seq<Record>) {
    forall i :: 0 <= i < |rows| ==> !IsValid(rows[i])
  }

  lemma NoneValidIffNoneKept(rows: seq<Record>)
    ensures NoneValid(rows) <==> |Filter(rows, IsValid)| == 0
  {
    var v := Filter(rows, IsValid);
    if |v| == 0 {
      forall i | 0 <= i < |rows|
        ensures !IsValid(rows[i])
      {
        assert rows[i] in multiset(rows);
        assert multiset(v) == multiset{};
      }
    } else {
      assert v[0] in multiset(v);
      assert v[0] in multiset(rows);
      var i :| 0 <= i < |rows| && rows[i] == v[0];
    }
  }

  /** The cleaning with every dropped row accounted for: when no row is
      valid, all of them are counted as invalid. */
  function PreprocessFixed(table: Table<Record>, quantile: Quantile): (r: Cleaned)
    ensures r.table.hasPnl == table.hasPnl && r.table.hasBalance == table.hasBalance
    ensures Chronological(r.table.rows)
    ensures forall i :: 0 <= i < |r.table.rows| ==> IsClean(r.table.rows[i])
    ensures KeysDistinct(r.table.rows, KeyOf)
    ensures multiset(MapSeq(ToRecord, r.table.rows)) <= multiset(table.rows)
    ensures r.stats.rowsBefore == |table.rows|
    ensures r.stats.rowsAfter.None? <==> |table.rows| == 0
    ensures |table.rows| > 0 ==> CleanedFrom(r, table, quantile)
    ensures r.stats.rowsBefore ==
      r.stats.droppedInvalid + r.stats.droppedOutliers + r.stats.droppedDuplicates + |r.table.rows|
  {
    var empty := Table(table.hasPnl, table.hasBalance, []);
    if |table.rows| == 0 then Cleaned(empty, Stats(0, 0, 0, 0, None))
    else
      var valid := Filter(table.rows, IsValid);
      if |valid| == 0 then
        AllInadmissible(table, quantile);
        Cleaned(empty, Stats(|table.rows|, |table.rows|, 0, 0, Some(0)))
      else CleanValid(table, quantile)
  }

  /** With no valid row, every row is inadmissible and nothing survives. */
  lemma AllInadmissible(table: Table<Record>, quantile: Quantile)
    requires |Filter(table.rows, IsValid)| == 0
    ensures |Filter(table.rows, Inadmissible)| == |table.rows|
    ensures Survivors(table, quantile) == [] && Admitted(table) == []
  {
    NoneValidIffNoneKept(table.rows);
    FilterSplitLength(table.rows, Admissible, Inadmissible);
    NoneAdmissible(table.rows);
    assert |MapSeq(ToRecord, Admitted(table))| == 0;
  }

  lemma NoneAdmissible(rows: seq<Record>)
    requires NoneValid(rows)
    ensures Filter(rows, Admissible) == []
  {
  }

  /** A row is kept exactly when it is the first of its key among the
      survivors of the outlier passes. */
  lemma KeptIffFirstSurvivor(table: Table<Record>, quantile: Quantile, x: Trade)
    requires !NoneValid(table.rows)
    ensures x in Preprocess(table, quantile).table.rows <==> IsFirstOfKey(Survivors(table, quantile), KeyOf, x)
  {
    var r := Preprocess(table, quantile);
    assert x in r.table.rows <==> x in multiset(r.table.rows);
    UniqueByIffFirst(Survivors(table, quantile), KeyOf, x);
  }

  /** A survivor is an admissible row of the frame inside both fences. */
  lemma SurvivorIff(table: Table<Record>, quantile: Quantile, x: Trade)
    ensures x in Survivors(table, quantile) <==>
      ToRecord(x) in table.rows && Admissible(ToRecord(x)) && PassesFences(x, table, quantile)
  {
    var s := Survivors(table, quantile);
    assert x in s <==> x in multiset(s);
    assert x in Admitted(table) <==> x in multiset(Admitted(table));
    AdmittedIff(table, x);
  }

  lemma ToRecordInjective(a: Trade, b: Trade)
    requires ToRecord(a) == ToRecord(b)
    ensures a == b
  {
    assert ActionName(a.action) == ActionName(b.action);
  }

  /** Fewer than ten admissible rows with distinct keys are all kept: no
      fence applies and nothing is a duplicate. */
  lemma SmallDistinctFrameKept(table: Table<Record>, quantile: Quantile)
    requires !NoneValid(table.rows)
    requires |Filter(table.rows, Admissible)| < FenceMinimum
    requires KeysDistinct(Admitted(table), KeyOf)
    ensures multiset(Preprocess(table, quantile).table.rows) == multiset(Admitted(table))
  {
    var admitted := Admitted(table);
    assert |admitted| == |MapSeq(ToRecord, admitted)|;
    assert Survivors(table, quantile) == admitted;
    UniqueByDistinct(admitted, KeyOf);
  }

  /** A frame whose only row has no timestamp. */
  const OneUntimedRow: Table<Record> :=
    Table(false, false, [Record(None, "buy", Some("AAPL"), Finite(1.0), Finite(1.0), None, None)])

  /** On a frame with no valid row, the counts as written do not add up:
      one row before, none after, none dropped. */
  lemma UnaccountedInvalidRows(quantile: Quantile)
    ensures var s := Preprocess(OneUntimedRow, quantile).stats;
      s.rowsBefore == 1 && s.rowsAfter == Some(0) &&
      s.droppedInvalid + s.droppedOutliers + s.droppedDuplicates == 0
  {
    assert !IsValid(OneUntimedRow.rows[0]);
  }

  /** The correction changes only the invalid-row count, and only when no
      row is valid. */
  lemma FixedDiffersOnlyInInvalidCount(table: Table<Record>, quantile: Quantile)
    ensures PreprocessFixed(table, quantile).table == Preprocess(table, quantile).table
    ensures PreprocessFixed(table, quantile).stats ==
      Preprocess(table, quantile).stats.(droppedInvalid := PreprocessFixed(table, quantile).stats.droppedInvalid)
    ensures PreprocessFixed(table, quantile).stats != Preprocess(table, quantile).stats <==>
      |table.rows| > 0 && NoneValid(table.rows)
  {
    NoneValidIffNoneKept(table.rows);
  }
}

=== FILE: revenge.dfy ===
/** Revenge trading: a trade opened within thirty minutes of a loss with a
    quantity more than one and a half times the previous trade's. */
module Revenge {
  import opened Util
  import opened Trades
  import opened Biases

  const Title := "Revenge Trading Pattern"
  const WindowSeconds := 30 * 60
  const SizeFactor := 1.5
  const PointsPerTrade := 25
  const MinScore := 15

  /** Row `i` follows a losing trade closely and with a much larger size. */
  predicate IsRevenge(table: Table<Trade>, i: nat)
    requires i < |table.rows|
  {
    var rows := table.rows;
    && i >= 1
    && table.hasPnl
    && rows[i - 1].pnl.Some? && rows[i - 1].pnl.value < 0.0
    && 0 < rows[i].timestamp - rows[i - 1].timestamp <= WindowSeconds
    && rows[i].quantity > SizeFactor * rows[i - 1].quantity
  }

  function RevengePred(table: Table<Trade>): nat -> bool {
    (i: nat) => i < |table.rows| && IsRevenge(table, i)
  }

  /** 25 points per revenge trade, at most 100. */
  function Score(count: nat): (r: int)
    ensures 0 <= r <= 100
    ensures r == 0 <==> count == 0
    ensures count <= 4 ==> r == PointsPerTrade * count
    ensures count >= 4 ==> r == 100
  {
    if count > 0 then Min(100, count * PointsPerTrade) else 0
  }

  const DescriptionTail := " trade(s) opened within 30 minutes of a loss with quantity >1.5\U{00D7} the previous trade."

  function Describe(count: nat): string {
    NatToString(count) + DescriptionTail
  }

  /** `detect_revenge_trading`. */
  function Detect(table: Table<Trade>): (r: Detection)
    ensures |table.rows| < 2 ==> r == NoDetection
    ensures r.bias.None? ==> r.flagged == []
    ensures forall i: nat :: i in r.flagged <==> |table.rows| >= 2 && i < |table.rows| && IsRevenge(table, i)
    ensures forall j, k :: 0 <= j < k < |r.flagged| ==> r.flagged[j] < r.flagged[k]
    ensures forall i :: i in r.flagged ==> i < |table.rows|
    ensures r.bias.Some? ==>
      && r.bias.value.kind == RevengeTrading
      && r.bias.value.title == Title
      && r.bias.value.details == RevengeDetails(|r.flagged|)
      && |r.flagged| >= 1 && MinScore <= r.bias.value.score
      && r.bias.value.score == Min(100, PointsPerTrade * |r.flagged|)
      && r.bias.value.severity == Grade(r.bias.value.score as real, 70.0, 45.0, 25.0)
  {
    if |table.rows| < 2 then NoDetection
    else
      var flags := IndicesWhere(|table.rows|, RevengePred(table));
      var score := Score(|flags|);
      if score < MinScore then NoDetection
      else
        var bias := Bias(RevengeTrading, Grade(score as real, 70.0, 45.0, 25.0), Title,
                         Describe(|flags|), RevengeDetails(|flags|), score);
        Detection(Some(bias), flags)
  }

  /** A result appears exactly when some row is a revenge trade. */
  lemma DetectedIff(table: Table<Trade>)
    ensures Detect(table).bias.Some? <==> exists i :: 0 <= i < |table.rows| && IsRevenge(table, i)
  {
    var flags := IndicesWhere(|table.rows|, RevengePred(table));
    if exists i :: 0 <= i < |table.rows| && IsRevenge(table, i) {
      var i :| 0 <= i < |table.rows| && IsRevenge(table, i);
      assert i in flags;
    }
    if Detect(table).bias.Some? {
      assert flags[0] in flags;
    }
  }

  /** Without a P/L column nothing is a revenge trade. */
  lemma NoPnlNoResult(table: Table<Trade>)
    requires !table.hasPnl
    ensures Detect(table) == NoDetection
  {
    var flags := IndicesWhere(|table.rows|, RevengePred(table));
    if flags != [] {
      assert flags[0] in flags;
    }
  }

  /** One revenge trade is low, two are high, three or more critical: the
      medium band is never reached. */
  lemma SeverityByCount(table: Table<Trade>)
    requires Detect(table).bias.Some?
    ensures var r := Detect(table);
      r.bias.value.severity == (if |r.flagged| == 1 then Low else if |r.flagged| == 2 then High else Critical)
    ensures Detect(table).bias.value.severity != Medium
  {
  }
}

=== FILE: sorting.dfy ===
/** Ordering by an integer key. The data frame sorts the engine relies on
    are modelled by one stable insertion sort. */
module Sorting {

  predicate SortedByKey<T>(s: seq<T>, key: T -> int) {
    forall i, j :: 0 <= i < j < |s| ==> key(s[i]) <= key(s[j])
  }

  /** Inserts `x` before the first element whose key is not smaller. */
  function InsertByKey<T>(x: T, s: seq<T>, key: T -> int): (r: seq<T>)
    requires SortedByKey(s, key)
    ensures SortedByKey(r, key)
    ensures multiset(r) == multiset(s) + multiset{x}
    ensures |r| == |s| + 1
    ensures r[0] == x || (s != [] && r[0] == s[0])
  {
    if s == [] || key(x) <= key(s[0]) then [x] + s
    else
      assert s == [s[0]] + s[1..];
      [s[0]] + InsertByKey(x, s[1..], key)
  }

  /** Sorts ascending by `key`; elements with equal keys keep their input order. */
  function SortByKey<T>(s: seq<T>, key: T -> int): (r: seq<T>)
    ensures SortedByKey(r, key)
    ensures multiset(r) == multiset(s)
    ensures |r| == |s|
  {
    if s == [] then []
    else
      assert s == [s[0]] + s[1..];
      InsertByKey(s[0], SortByKey(s[1..], key), key)
  }

  /** Input order, given as a strictly increasing `rank`. */
  predicate StrictlyRanked<T>(s: seq<T>, rank: T -> int) {
    forall i, j :: 0 <= i < j < |s| ==> rank(s[i]) < rank(s[j])
  }

  /** Sorted by `key`, ties ordered by `rank`. */
  predicate SortedStably<T>(s: seq<T>, key: T -> int, rank: T -> int) {
    forall i, j :: 0 <= i < j < |s| ==>
      key(s[i]) < key(s[j]) || (key(s[i]) == key(s[j]) && rank(s[i]) < rank(s[j]))
  }

  lemma {:induction false} InsertByKeyStable<T>(x: T, s: seq<T>, key: T -> int, rank: T -> int)
    requires SortedByKey(s, key) && SortedStably(s, key, rank)
    requires forall k :: 0 <= k < |s| ==> rank(x) < rank(s[k])
    ensures SortedStably(InsertByKey(x, s, key), key, rank)
  {
    if s == [] || key(x) <= key(s[0]) {
    } else {
      assert s == [s[0]] + s[1..];
      var t := InsertByKey(x, s[1..], key);
      InsertByKeyStable(x, s[1..], key, rank);
      assert t[0] == x || t[0] == s[1];
    }
  }

  /** The sort is stable: equal keys stay in input order. */
  lemma {:induction false} SortByKeyStable<T>(s: seq<T>, key: T -> int, rank: T -> int)
    requires StrictlyRanked(s, rank)
    ensures SortedStably(SortByKey(s, key), key, rank)
  {
    if s != [] {
      assert s == [s[0]] + s[1..];
      var t := SortByKey(s[1..], key);
      SortByKeyStable(s[1..], key, rank);
      assert forall k :: 0 <= k < |t| ==> t[k] in multiset(s[1..]);
      assert forall k :: 0 <= k < |t| ==> t[k] in s[1..];
      InsertByKeyStable(s[0], t, key, rank);
    }
  }
}

=== FILE: trades.dfy ===
/** The engine's data model: rows of the parsed frame, rows of the cleaned
    frame, and a frame that knows which optional columns it has. */
module Trades {
  import opened Util
  import opened Sorting

  /** A numeric cell after the lenient float cast: null (empty or not a
      number), a finite value, or an infinity or NaN. */
  datatype Cell = Null | Finite(x: real) | NonFinite

  datatype Action = Buy | Sell

  /** A row of the parsed frame, before cleaning. `action` is already
      normalised to a word; every other cell may still be null or invalid. */
  datatype Record = Record(
    timestamp: Option<int>,   // epoch seconds
    action: string,
    asset: Option<string>,
    quantity: Cell,
    price: Cell,
    pnl: Option<real>,
    balance: Option<real>)

  /** A row of the cleaned frame: every required cell present and valid. */
  datatype Trade = Trade(
    timestamp: int,
    action: Action,
    asset: string,
    quantity: real,
    price: real,
    pnl: Option<real>,
    balance: Option<real>)

  /** A frame. The engine branches on whether the P/L and balance
      columns exist, not only on whether a cell is null. */
  datatype Table<R> = Table(hasPnl: bool, hasBalance: bool, rows: seq<R>)

  function ActionName(a: Action): string {
    match a
    case Buy => "buy"
    case Sell => "sell"
  }

  /** A cleaned row seen as a row of the frame it came from. */
  function ToRecord(t: Trade): Record {
    Record(Some(t.timestamp), ActionName(t.action), Some(t.asset),
           Finite(t.quantity), Finite(t.price), t.pnl, t.balance)
  }

  function Time(t: Trade): int {
    t.timestamp
  }

  /** Ascending by timestamp, as every detector expects. */
  predicate Chronological(rows: seq<Trade>) {
    SortedByKey(rows, Time)
  }
}

=== FILE: util.dfy ===
/** Shared vocabulary of the model: optional values, results, sums, filters,
    index sets, first-occurrence de-duplication and Python's `round`. */
module Util {

  /** A value that may be absent: a null cell, a missing dictionary key. */
  datatype Option<+T> = None | Some(value: T)

  /** The outcome of an operation that may raise. */
  datatype Result<+T, +E> = Ok(value: T) | Err(error: E)

  function Min(a: int, b: int): int {
    if a <= b then a else b
  }

  function MinReal(a: real, b: real): real {
    if a <= b then a else b
  }

  function Abs(x: real): real {
    if x < 0.0 then -x else x
  }

  function Sum(s: seq<real>): real {
    if s == [] then 0.0 else s[0] + Sum(s[1..])
  }

  function SumNat(s: seq<nat>): nat {
    if s == [] then 0 else s[0] + SumNat(s[1..])
  }

  /** Arithmetic mean of a non-empty sequence. */
  function Mean(s: seq<real>): real
    requires |s| > 0
  {
    Sum(s) / (|s| as real)
  }

  function MapSeq<A, B>(f: A -> B, s: seq<A>): seq<B> {
    seq(|s|, i requires 0 <= i < |s| => f(s[i]))
  }

  /** Applies `f` to every element in order and stops at the first error. */
  function MapAll<A, B, E>(f: A -> Result<B, E>, s: seq<A>): (r: Result<seq<B>, E>)
    ensures r.Ok? ==> |r.value| == |s|
    ensures r.Ok? ==> forall i :: 0 <= i < |s| ==> f(s[i]) == Ok(r.value[i])
    ensures r.Err? <==> exists i :: 0 <= i < |s| && f(s[i]).Err?
  {
    if s == [] then Ok([])
    else
      var first := f(s[0]);
      if first.Err? then Err(first.error)
      else
        var rest := MapAll(f, s[1..]);
        assert forall i :: 1 <= i < |s| ==> s[i] == s[1..][i - 1];
        if rest.Err? then
          var i :| 0 <= i < |s[1..]| && f(s[1..][i]).Err?;
          assert f(s[i + 1]).Err?;
          Err(rest.error)
        else
          Ok([first.value] + rest.value)
  }

  /** Every term in [lo, hi] bounds the sum by lo and hi times the count. */
  lemma {:induction false} SumBounds(s: seq<real>, lo: real, hi: real)
    requires forall i :: 0 <= i < |s| ==> lo <= s[i] <= hi
    ensures lo * |s| as real <= Sum(s) <= hi * |s| as real
  {
    if s != [] {
      SumBounds(s[1..], lo, hi);
      assert lo * |s| as real == lo + lo * |s[1..]| as real;
      assert hi * |s| as real == hi + hi * |s[1..]| as real;
    }
  }

  /** The mean of terms in [lo, hi] is in [lo, hi]. */
  lemma MeanBounds(s: seq<real>, lo: real, hi: real)
    requires |s| > 0
    requires forall i :: 0 <= i < |s| ==> lo <= s[i] <= hi
    ensures lo <= Mean(s) <= hi
  {
    SumBounds(s, lo, hi);
    var n := |s| as real;
    assert Mean(s) * n == Sum(s);
  }

  /** Adding to one entry adds to the total. */
  lemma {:induction false} SumNatBump(s: seq<nat>, k: nat, v: nat)
    requires k < |s|
    ensures SumNat(s[k := s[k] + v]) == SumNat(s) + v
  {
    if k > 0 {
      assert s[k := s[k] + v][1..] == s[1..][k - 1 := s[k] + v];
      SumNatBump(s[1..], k - 1, v);
    }
  }

  /** The first `n` elements, or all of them when there are fewer (Python's `s[:n]`). */
  function Take<T>(s: seq<T>, n: nat): (r: seq<T>)
    ensures |r| == Min(n, |s|)
    ensures forall i :: 0 <= i < |r| ==> r[i] == s[i]
  {
    if |s| <= n then s else s[..n]
  }

  /** The elements of `s` that satisfy `p`, in order. */
  function Filter<T(!new)>(s: seq<T>, p: T -> bool): (r: seq<T>)
    ensures |r| <= |s|
    ensures forall i :: 0 <= i < |r| ==> p(r[i])
    ensures forall x :: multiset(r)[x] == if p(x) then multiset(s)[x] else 0
  {
    if s == [] then []
    else
      assert s == [s[0]] + s[1..];
      if p(s[0]) then [s[0]] + Filter(s[1..], p) else Filter(s[1..], p)
  }

  lemma {:induction false} FilterConcat<T(!new)>(a: seq<T>, b: seq<T>, p: T -> bool)
    ensures Filter(a + b, p) == Filter(a, p) + Filter(b, p)
  {
    if a == [] {
      assert a + b == b;
    } else {
      assert (a + b)[0] == a[0];
      assert (a + b)[1..] == a[1..] + b;
      FilterConcat(a[1..], b, p);
    }
  }

  /** Filtering two arrangements of the same elements keeps equally many. */
  lemma FilterSameLength<T(!new)>(a: seq<T>, b: seq<T>, p: T -> bool)
    requires multiset(a) == multiset(b)
    ensures |Filter(a, p)| == |Filter(b, p)|
  {
    assert multiset(Filter(a, p)) == multiset(Filter(b, p));
    assert |Filter(a, p)| == |multiset(Filter(a, p))|;
    assert |Filter(b, p)| == |multiset(Filter(b, p))|;
  }

  /** A run of positions that all satisfy `p` is kept by the filter. */
  lemma {:induction false} FilterKeepsRun<T(!new)>(s: seq<T>, p: T -> bool, lo: nat, hi: nat)
    requires lo <= hi <= |s|
    requires forall j :: lo <= j < hi ==> p(s[j])
    ensures |Filter(s, p)| >= hi - lo
  {
    if hi > lo {
      if lo == 0 {
        FilterKeepsRun(s[1..], p, 0, hi - 1);
      } else {
        FilterKeepsRun(s[1..], p, lo - 1, hi - 1);
      }
    }
  }

  /** Two filters in a row are one filter by the conjunction. */
  lemma {:induction false} FilterFilter<T(!new)>(s: seq<T>, p: T -> bool, q: T -> bool, both: T -> bool)
    requires forall x :: both(x) == (p(x) && q(x))
    ensures Filter(Filter(s, p), q) == Filter(s, both)
  {
    if s != [] {
      FilterFilter(s[1..], p, q, both);
      if p(s[0]) {
        assert Filter(s, p) == [s[0]] + Filter(s[1..], p);
      }
    }
  }

  /** What a filter keeps and what its negation keeps add up to the whole. */
  lemma {:induction false} FilterSplitLength<T(!new)>(s: seq<T>, p: T -> bool, q: T -> bool)
    requires forall x :: q(x) == !p(x)
    ensures |Filter(s, p)| + |Filter(s, q)| == |s|
  {
    if s != [] {
      FilterSplitLength(s[1..], p, q);
    }
  }

  /** Filtering by a predicate and by its negation splits a sequence. */
  lemma FilterPartition<T(!new)>(s: seq<T>, p: T -> bool, q: T -> bool)
    requires forall x :: q(x) == !p(x)
    ensures multiset(Filter(s, p)) + multiset(Filter(s, q)) == multiset(s)
  {
    assert forall x :: multiset(Filter(s, p))[x] + multiset(Filter(s, q))[x] == multiset(s)[x];
  }

  /** A sub-multiset of a sequence's elements is no longer than it. */
  lemma {:induction false} SubMultisetShorter<T>(a: seq<T>, b: seq<T>)
    requires multiset(a) <= multiset(b)
    ensures |a| <= |b|
    decreases |a|
  {
    if a != [] {
      var x := a[0];
      assert x in multiset(a);
      var k :| 0 <= k < |b| && b[k] == x;
      var b' := b[..k] + b[k + 1..];
      assert b == b[..k] + [x] + b[k + 1..];
      assert multiset(b') == multiset(b) - multiset{x};
      assert a == [x] + a[1..];
      SubMultisetShorter(a[1..], b');
    }
  }

  /** A property of every element survives taking a sub-multiset. */
  lemma SubMultisetKeeps<T>(a: seq<T>, b: seq<T>, p: T -> bool)
    requires multiset(a) <= multiset(b)
    requires forall i :: 0 <= i < |b| ==> p(b[i])
    ensures forall i :: 0 <= i < |a| ==> p(a[i])
  {
    forall i | 0 <= i < |a|
      ensures p(a[i])
    {
      assert a[i] in multiset(a);
      assert a[i] in multiset(b);
    }
  }

  /** The indices below `n` that satisfy `p`, ascending (a data frame's
      `int_range(0, n)` column filtered by a mask). */
  function IndicesWhere(n: nat, p: nat -> bool): (r: seq<nat>)
    ensures |r| <= n
    ensures forall i: nat :: i in r <==> i < n && p(i)
    ensures forall j, k :: 0 <= j < k < |r| ==> r[j] < r[k]
  {
    if n == 0 then []
    else
      var r := IndicesWhere(n - 1, p);
      assert forall j :: 0 <= j < |r| ==> r[j] in r;
      r + (if p(n - 1) then [n - 1] else [])
  }

  /** Counting is monotone in the predicate. */
  lemma {:induction false} IndicesWhereMono(n: nat, p: nat -> bool, q: nat -> bool)
    requires forall i: nat :: i < n && p(i) ==> q(i)
    ensures |IndicesWhere(n, p)| <= |IndicesWhere(n, q)|
  {
    if n > 0 {
      IndicesWhereMono(n - 1, p, q);
    }
  }

  /** Counting depends only on which indices satisfy the predicate. */
  lemma {:induction false} IndicesWhereSame(n: nat, p: nat -> bool, q: nat -> bool)
    requires forall i: nat :: i < n ==> (p(i) <==> q(i))
    ensures IndicesWhere(n, p) == IndicesWhere(n, q)
  {
    if n > 0 {
      IndicesWhereSame(n - 1, p, q);
    }
  }

  /** Mapping preserves the sub-multiset relation. */
  lemma {:induction false} MapSubMultiset<A, B>(f: A -> B, a: seq<A>, b: seq<A>)
    requires multiset(a) <= multiset(b)
    ensures multiset(MapSeq(f, a)) <= multiset(MapSeq(f, b))
    decreases |a|
  {
    if a != [] {
      var x := a[0];
      assert x in multiset(b);
      var k :| 0 <= k < |b| && b[k] == x;
      var b' := b[..k] + b[k + 1..];
      DropMatched(a, b, k);
      MapSubMultiset(f, a[1..], b');
      MapDropOne(f, b, k);
      assert MapSeq(f, a) == [f(x)] + MapSeq(f, a[1..]);
    }
  }

  /** Removing the first element of `a` and a matching element of `b`
      keeps the sub-multiset relation. */
  lemma DropMatched<T>(a: seq<T>, b: seq<T>, k: nat)
    requires a != [] && k < |b| && b[k] == a[0]
    requires multiset(a) <= multiset(b)
    ensures multiset(a[1..]) <= multiset(b[..k] + b[k + 1..])
  {
    var b' := b[..k] + b[k + 1..];
    assert b == b[..k] + [b[k]] + b[k + 1..];
    assert multiset(b) == multiset(b') + multiset{a[0]};
    assert a == [a[0]] + a[1..];
    assert multiset(a) == multiset{a[0]} + multiset(a[1..]);
    forall y
      ensures multiset(a[1..])[y] <= multiset(b')[y]
    {
      assert multiset(a)[y] <= multiset(b)[y];
    }
  }

  /** Mapping a sequence with one element removed. */
  lemma MapDropOne<A, B>(f: A -> B, b: seq<A>, k: nat)
    requires k < |b|
    ensures multiset(MapSeq(f, b)) == multiset(MapSeq(f, b[..k] + b[k + 1..])) + multiset{f(b[k])}
  {
    var m := MapSeq(f, b);
    var m' := MapSeq(f, b[..k] + b[k + 1..]);
    assert m == m[..k] + [m[k]] + m[k + 1..];
    assert m' == m[..k] + m[k + 1..];
  }

  /** The keys that occur in `s`. */
  function KeysOf<T(==), K>(s: seq<T>, key: T -> K): set<K> {
    set x | x in s :: key(x)
  }

  /** Pairwise distinct keys. */
  ghost predicate KeysDistinct<T, K>(s: seq<T>, key: T -> K) {
    forall i, j :: 0 <= i < j < |s| ==> key(s[i]) != key(s[j])
  }

  /** Keys are distinct exactly when there are as many keys as elements. */
  lemma {:induction false} KeysDistinctCard<T, K>(s: seq<T>, key: T -> K)
    ensures |KeysOf(s, key)| <= |s|
    ensures KeysDistinct(s, key) <==> |KeysOf(s, key)| == |s|
  {
    if s != [] {
      var t := s[1..];
      KeysDistinctCard(t, key);
      assert s == [s[0]] + t;
      assert KeysOf(s, key) == {key(s[0])} + KeysOf(t, key);
      if KeysDistinct(s, key) {
        assert KeysDistinct(t, key);
        assert key(s[0]) !in KeysOf(t, key);
      } else if |KeysOf(s, key)| == |s| {
        assert key(s[0]) !in KeysOf(t, key);
        assert KeysDistinct(t, key);
        forall i, j | 0 <= i < j < |s|
          ensures key(s[i]) != key(s[j])
        {
          if i == 0 {
            assert s[j] == t[j - 1] && t[j - 1] in t;
          } else {
            assert s[i] == t[i - 1] && s[j] == t[j - 1];
          }
        }
        assert false;
      }
    }
  }

  /** Reordering keeps keys distinct. */
  lemma KeysDistinctPerm<T, K>(a: seq<T>, b: seq<T>, key: T -> K)
    requires multiset(a) == multiset(b)
    requires KeysDistinct(b, key)
    ensures KeysDistinct(a, key)
  {
    assert forall x :: x in a <==> x in multiset(a);
    assert forall x :: x in b <==> x in multiset(b);
    assert KeysOf(a, key) == KeysOf(b, key);
    assert |a| == |multiset(a)| == |b|;
    KeysDistinctCard(a, key);
    KeysDistinctCard(b, key);
  }

  /** Position of the first element of `s` with key `k`. */
  function FirstIndex<T(==), K(==)>(s: seq<T>, key: T -> K, k: K): (i: nat)
    requires k in KeysOf(s, key)
    ensures i < |s| && key(s[i]) == k
    ensures forall j :: 0 <= j < i ==> key(s[j]) != k
  {
    if key(s[0]) == k then 0
    else
      assert s == [s[0]] + s[1..];
      assert k in KeysOf(s[1..], key);
      1 + FirstIndex(s[1..], key, k)
  }

  /** Keeps the first element of every key, dropping later ones
      (`dict.fromkeys`, a data frame's `unique(subset=...)`). */
  function UniqueBy<T(==), K(==)>(s: seq<T>, key: T -> K): (r: seq<T>)
    ensures forall i, j :: 0 <= i < j < |r| ==> key(r[i]) != key(r[j])
    ensures KeysOf(r, key) == KeysOf(s, key)
    ensures multiset(r) <= multiset(s)
    ensures |r| <= |s|
    decreases |s|
  {
    if s == [] then []
    else
      var prefix := s[..|s| - 1];
      var x := s[|s| - 1];
      assert s == prefix + [x];
      var p := UniqueBy(prefix, key);
      if key(x) in KeysOf(prefix, key) then p
      else
        assert forall i :: 0 <= i < |p| ==> key(p[i]) in KeysOf(p, key);
        assert KeysOf(p + [x], key) == KeysOf(p, key) + {key(x)};
        assert KeysOf(s, key) == KeysOf(prefix, key) + {key(x)};
        p + [x]
  }

  lemma FirstIndexPrefix<T, K>(s: seq<T>, key: T -> K, k: K, n: nat)
    requires n <= |s|
    requires k in KeysOf(s[..n], key)
    ensures k in KeysOf(s, key)
    ensures FirstIndex(s, key, k) == FirstIndex(s[..n], key, k)
  {
    var t := s[..n];
    var i := FirstIndex(t, key, k);
    assert t[i] == s[i] && s[i] in s;
    assert forall j :: 0 <= j < i ==> t[j] == s[j];
  }

  /** Every element `UniqueBy` keeps is the first of its key in the input. */
  lemma {:induction false} UniqueByKeepsFirst<T, K>(s: seq<T>, key: T -> K)
    ensures forall a :: 0 <= a < |UniqueBy(s, key)| ==>
      var k := key(UniqueBy(s, key)[a]);
      k in KeysOf(s, key) && UniqueBy(s, key)[a] == s[FirstIndex(s, key, k)]
    decreases |s|
  {
    var r := UniqueBy(s, key);
    if s != [] {
      var n := |s| - 1;
      var prefix := s[..n];
      var x := s[n];
      var p := UniqueBy(prefix, key);
      UniqueByKeepsFirst(prefix, key);
      forall a | 0 <= a < |r|
        ensures key(r[a]) in KeysOf(s, key) && r[a] == s[FirstIndex(s, key, key(r[a]))]
      {
        if a < |p| {
          assert r[a] == p[a];
          FirstIndexPrefix(s, key, key(p[a]), n);
        } else {
          assert r == p + [x] && r[a] == x;
          FirstIndexOfLast(s, key);
        }
      }
    }
  }

  /** When the last element's key is new, its first index is the last position. */
  lemma FirstIndexOfLast<T, K>(s: seq<T>, key: T -> K)
    requires |s| > 0 && key(s[|s| - 1]) !in KeysOf(s[..|s| - 1], key)
    ensures key(s[|s| - 1]) in KeysOf(s, key)
    ensures FirstIndex(s, key, key(s[|s| - 1])) == |s| - 1
  {
    var n := |s| - 1;
    assert s[n] in s;
  }

  /** `x` occurs in `s` with no element of its key before it. */
  predicate IsFirstOfKey<T(==), K(==)>(s: seq<T>, key: T -> K, x: T) {
    exists i :: 0 <= i < |s| && s[i] == x && forall j :: 0 <= j < i ==> key(s[j]) != key(x)
  }

  /** `UniqueBy` keeps exactly the elements that are the first of their key. */
  lemma UniqueByIffFirst<T, K>(s: seq<T>, key: T -> K, x: T)
    ensures x in UniqueBy(s, key) <==> IsFirstOfKey(s, key, x)
  {
    var u := UniqueBy(s, key);
    UniqueByKeepsFirst(s, key);
    if x in u {
      var a :| 0 <= a < |u| && u[a] == x;
      var i := FirstIndex(s, key, key(x));
      assert s[i] == x;
    }
    if IsFirstOfKey(s, key, x) {
      var i :| 0 <= i < |s| && s[i] == x && forall j :: 0 <= j < i ==> key(s[j]) != key(x);
      assert key(x) in KeysOf(s, key);
      assert key(x) in KeysOf(u, key);
      var y :| y in u && key(y) == key(x);
      var a :| 0 <= a < |u| && u[a] == y;
      var f := FirstIndex(s, key, key(x));
      assert f == i;
    }
  }

  /** With distinct keys nothing is dropped. */
  lemma {:induction false} UniqueByDistinct<T, K>(s: seq<T>, key: T -> K)
    requires KeysDistinct(s, key)
    ensures UniqueBy(s, key) == s
    decreases |s|
  {
    if s != [] {
      var n := |s| - 1;
      var prefix := s[..n];
      assert s == prefix + [s[n]];
      assert KeysDistinct(prefix, key);
      UniqueByDistinct(prefix, key);
    }
  }

  /** `UniqueBy` keeps elements in order of their key's first appearance. */
  lemma UniqueByFirstAppearanceOrder<T, K>(s: seq<T>, key: T -> K)
    ensures forall a, b :: 0 <= a < b < |UniqueBy(s, key)| ==>
      var ka := key(UniqueBy(s, key)[a]);
      var kb := key(UniqueBy(s, key)[b]);
      ka in KeysOf(s, key) && kb in KeysOf(s, key) && FirstIndex(s, key, ka) < FirstIndex(s, key, kb)
  {
    forall a, b | 0 <= a < b < |UniqueBy(s, key)|
      ensures key(UniqueBy(s, key)[a]) in KeysOf(s, key) && key(UniqueBy(s, key)[b]) in KeysOf(s, key)
      ensures FirstIndex(s, key, key(UniqueBy(s, key)[a])) < FirstIndex(s, key, key(UniqueBy(s, key)[b]))
    {
      KeptPairOrder(s, key, a, b);
    }
  }

  /** One pair of kept elements: the earlier one's key appears first. */
  lemma {:induction false} KeptPairOrder<T, K>(s: seq<T>, key: T -> K, a: nat, b: nat)
    requires a < b < |UniqueBy(s, key)|
    ensures key(UniqueBy(s, key)[a]) in KeysOf(s, key) && key(UniqueBy(s, key)[b]) in KeysOf(s, key)
    ensures FirstIndex(s, key, key(UniqueBy(s, key)[a])) < FirstIndex(s, key, key(UniqueBy(s, key)[b]))
    decreases |s|
  {
    var n := |s| - 1;
    var prefix := s[..n];
    var x := s[n];
    assert s == prefix + [x];
    var p := UniqueBy(prefix, key);
    var r := UniqueBy(s, key);
    assert p[a] in p;
    assert r[a] == p[a];
    if b < |p| {
      assert r[b] == p[b] && p[b] in p;
      KeptPairOrder(prefix, key, a, b);
      FirstIndexPrefix(s, key, key(p[a]), n);
      FirstIndexPrefix(s, key, key(p[b]), n);
    } else {
      assert r == p + [x] && r[b] == x;
      FirstIndexPrefix(s, key, key(p[a]), n);
      FirstIndexOfLast(s, key);
    }
  }

  /** Python's `round` on a real: nearest integer, ties to the even one. */
  function RoundHalfEven(x: real): (r: int)
    ensures x - 0.5 <= r as real <= x + 0.5
    ensures r as real == x - 0.5 || r as real == x + 0.5 ==> r % 2 == 0
  {
    var f := x.Floor;
    var d := x - f as real;
    if d < 0.5 then f
    else if d > 0.5 then f + 1
    else if f % 2 == 0 then f
    else f + 1
  }

  /** The rounding contract has exactly one solution. */
  lemma RoundHalfEvenUnique(x: real, n: int)
    requires x - 0.5 <= n as real <= x + 0.5
    requires n as real == x - 0.5 || n as real == x + 0.5 ==> n % 2 == 0
    ensures n == RoundHalfEven(x)
  {
    var r := RoundHalfEven(x);
    if n < r {
      assert false;
    } else if n > r {
      assert false;
    }
  }

  /** Formats a number with a given count of decimals, as Python's
      `f"{x:.Nf}"` does; float formatting is not part of this model. */
  type FixedPoint = (real, nat) -> string

  predicate IsDigit(c: char) {
    '0' <= c <= '9'
  }

  function DigitChar(d: nat): (c: char)
    requires d < 10
    ensures IsDigit(c)
  {
    ('0' as int + d) as char
  }

  /** The decimal numeral of `n`, as Python's `str(n)` and `f"{n}"` write it. */
  function NatToString(n: nat): (r: string)
    ensures |r| >= 1
    ensures forall i :: 0 <= i < |r| ==> IsDigit(r[i])
    ensures r[0] == '0' ==> n == 0
  {
    if n < 10 then [DigitChar(n)] else NatToString(n / 10) + [DigitChar(n % 10)]
  }

  /** The value of a string of decimal digits. */
  function DigitsValue(s: string): nat
    requires forall i :: 0 <= i < |s| ==> IsDigit(s[i])
  {
    if s == [] then 0
    else
      assert IsDigit(s[|s| - 1]);
      DigitsValue(s[..|s| - 1]) * 10 + (s[|s| - 1] as int - '0' as int)
  }

  /** Reading the numeral back gives the number. */
  lemma {:induction false} NatToStringValue(n: nat)
    ensures DigitsValue(NatToString(n)) == n
  {
    if n >= 10 {
      var s := NatToString(n);
      assert s[..|s| - 1] == NatToString(n / 10);
      NatToStringValue(n / 10);
    }
  }
}
